=== FILE: README.md ===
# aisdi maps in Dafny

A functional model of the two map containers of the `aisdi` library, with
proofs about how they behave.

`TreeMap` is an unbalanced binary search tree with CLRS-style insertion,
search, successor/predecessor walks over parent links, and a splicing
`remove`. `HashMap` is a fixed table of 1000 separately chained buckets with a
node counter. The model keeps the library's behaviour, including its
defects, which are described below and exhibited by lemmas.

- `common.dfy` (module `Common`): the `Option` and `Result` wrappers, the
  library's error conditions as an `Error` datatype (every `out_of_range`
  the containers throw), and `FirstIndex`, the first entry of a sequence
  holding a key.
- `tree_map.dfy` (module `TreeMap`): the tree as `Leaf | Node(left, key,
  value, right)` with `int` keys. A node is named by its path from the root.
  An iterator is `At(path)` or `End` (the null node). Parent links are
  implicit: the parent walks of `treeSucessor` and `treePredecessor` climb
  back up the path. The reference order is `InOrder`/`InOrderPaths`, the
  in-order traversal, and every iterator operation is related to it.
- `hash_map.dfy` (module `HashMap`): the map as
  `Map(id, hash, buckets: seq<seq<(K, V)>>, number)`. `id` stands for the
  map's address, which iterators record and `remove` compares. `hash` is
  the key hash, a parameter of the map. An iterator is
  `Iter(owner, node, index)`, where `node` is the position in the chain of
  bucket `index`, or `None` for a null node. The reference order is
  `Entries`, the chains laid end to end from bucket 0 to bucket 999, with
  `Order` giving the (bucket, position) of each entry.

Two invariants are used for `HashMap`. `Valid` says:

- there are 1000 buckets;
- every key sits in its hash bucket;
- the counter is at least the number of entries.

`Consistent` additionally says that the counter equals the number of
entries. Every operation keeps `Valid`. `operator[]` keeps `Consistent`.
`remove` keeps `Consistent` only for chain heads.

### Where the code departs from the intended contract

The library is meant to behave as follows:

- `operator[]` inserts only absent keys and returns the key's own value.
- The size counter equals the number of entries.
- `remove` re-links a chain's neighbours, and after `remove(key)` the key
  is not found.
- `--` walks back along `prev` links.
- Two-child removal preserves the search tree.
- `TreeMap` equality is a key/value-set comparison.

The code does not do all of this. The model follows the code, and each
departure is stated by a lemma:

- `HashMap::operator[]` compares the key with the chain's head only (HashMap.h:142).
  A key that sits further down its chain gets a second node. See
  `HashMap.IndexDuplicates`, and `HashMap.IndexAppendsDuplicate` on a
  concrete map. So `getSize` counts such a key twice.
- `remove(key)` then takes out only the first node with the key
  (HashMap.h:174-176), so a key with two nodes is still found afterwards.
  `HashMap.RemoveKeyThenFind` states when `find(key)` is `end()` after
  `remove(key)`, and `HashMap.RemoveKeyLeavesDuplicate` shows a concrete
  map where it is not.
- When `HashMap::operator[]` appends, it returns the value slot of the old
  tail rather than the new node's (HashMap.h:147-149). So `map[k] = v`
  can write `v` into another key's entry, and an overwrite can be lost.
  `HashMap.AssignWritesPreviousTail` shows keys 1 and 2 colliding: after
  `m[1] = 10; m[2] = 20`, key 1 reads 20 and key 2 reads 0.
  The general case is stated by two lemmas. `HashMap.AssignThenValueOf`
  covers how the assigned key reads. `HashMap.AssignThenOtherKey` covers
  every other key: only the old tail's key changes, and it reads `value`.
- No `HashMap` node ever gets a non-null `prev` (HashMap.h:35). This has
  two effects:
  - `remove(it)` always makes the bucket start at the removed node's
    `next`. It therefore also drops every node before it in the chain,
    while the counter drops by one. See `HashMap.RemoveConsistency` and
    `HashMap.RemoveDropsEarlierEntries`.
  - `--` from a node that is not a chain head yields an iterator with a
    null node that is neither `end()` nor any position. See
    `HashMap.DecrementInsideChain`.
- `TreeMap::remove` on a node with two children splices out the successor
  but frees the node the iterator names, which stays linked
  (TreeMap.h:176-191). The model's `remove` requires a target with at most
  one child. `TreeMap.RemoveTwoChildren` states what the splice does in
  the other case.
- `TreeMap::operator==` only checks that each entry of the left map is
  found in the right one, so it is not symmetric (`TreeMap.CoversNotSymmetric`).

## Model

| member | source | states |
|---|---|---|
| Common.FirstIndex | HashMap.h:257-266 | the first match returned holds the key |
| Common.FirstIndexSpec | HashMap.h:257-266 | nothing before the first match holds the key, and there is no match exactly when no entry holds the key |
| Common.FirstIndexSameKeys | HashMap.h:257-266 | the chain scan depends only on the keys, so writing a value never moves a key's first match |
| TreeMap.InOrderPathsMatch | TreeMap.h:286-306 | the in-order node sequence lists the nodes whose entries form the in-order entry sequence |
| TreeMap.InOrderPathsDistinct | TreeMap.h:286-306 | no node occurs twice in the in-order node sequence |
| TreeMap.Rank | TreeMap.h:286-306 | every node of the tree occurs in the in-order sequence |
| TreeMap.Count | TreeMap.h:308-313 | `count` of a tree is the number of its entries in in-order |
| TreeMap.InOrderPathsCount | TreeMap.h:308-313 | there are as many nodes in in-order as `count` says |
| TreeMap.Leftmost | TreeMap.h:270-276 | `treeMinimum` ends at a node without a left child |
| TreeMap.Rightmost | TreeMap.h:278-284 | `treeMaximum` ends at a node without a right child |
| TreeMap.LeftmostIsFirst | TreeMap.h:270-276 | the node `treeMinimum` reaches is the first in in-order |
| TreeMap.RightmostIsLast | TreeMap.h:278-284 | the node `treeMaximum` reaches is the last in in-order |
| TreeMap.ClimbFromRightSpec | TreeMap.h:289-294 | the parent walk runs past the root exactly when every step below is a right step, and otherwise stops at the deepest node from which the path turns left, with only right turns after it |
| TreeMap.ClimbFromLeftSpec | TreeMap.h:300-305 | the mirror-image walk of `treePredecessor` |
| TreeMap.ClimbFromRightCons | TreeMap.h:289-294 | the climb of `treeSucessor` from one level deeper: a left step stops the walk at the parent once the walk below has run past its subtree, and a right step passes the walk on upward |
| TreeMap.ClimbFromLeftCons | TreeMap.h:300-305 | the mirror-image climb of `treePredecessor`: a right step stops the walk at the parent, and a left step passes it on upward |
| TreeMap.SuccessorIsNext | TreeMap.h:286-295 | `treeSucessor` of the i-th in-order node is the (i+1)-th, and null after the last |
| TreeMap.PredecessorIsPrevious | TreeMap.h:297-306 | `treePredecessor` of the i-th in-order node is the (i-1)-th, and null before the first |
| TreeMap.SuccessorUnder | TreeMap.h:286-295 | the successor of a node inside a child subtree is its successor within that subtree, seen from the root; when the subtree has none, it is the root for a left subtree and null for a right one |
| TreeMap.PredecessorUnder | TreeMap.h:297-306 | the predecessor of a node inside a child subtree is its predecessor within that subtree; when the subtree has none, it is the root for a right subtree and null for a left one |
| TreeMap.SuccessorOfRoot | TreeMap.h:286-295 | the root's successor is the in-order node right after the root, or null when the root is last |
| TreeMap.PredecessorOfRoot | TreeMap.h:297-306 | the root's predecessor is the in-order node right before the root, or null when the root is first |
| TreeMap.SuccessorOfRootDown | TreeMap.h:287-288 | with a right subtree, the successor is the first node of that subtree |
| TreeMap.PredecessorOfRootDown | TreeMap.h:298-299 | with a left subtree, the predecessor is the last node of that subtree |
| TreeMap.KeysFoundInOrder | TreeMap.h:133-147 | a key is in the tree exactly when some in-order entry holds it |
| TreeMap.BstInOrderSorted | TreeMap.h:245-268 | in-order traversal of a search tree meets keys in non-decreasing order |
| TreeMap.TreeMinimum | TreeMap.h:270-276 | `begin()` is null exactly for the empty tree and is the first iterator position |
| TreeMap.TreeMaximum | TreeMap.h:278-284 | null exactly for the empty tree, otherwise the last iterator position |
| TreeMap.BstEndsAreExtreme | TreeMap.h:270-284 | in a search tree the minimum node holds the smallest key and the maximum node the largest |
| TreeMap.Find | TreeMap.h:133-162 | a node `find` reaches holds the key |
| TreeMap.FindIsComplete | TreeMap.h:133-162 | in a search tree `find` reaches null exactly when the key is absent |
| TreeMap.FindIsFirstInOrder | TreeMap.h:133-162 | in a search tree `find` reaches the first in-order entry with the key |
| TreeMap.ValueOf | TreeMap.h:117-131 | `valueOf` raises exactly when `find` reaches null, and otherwise returns a value stored under the key |
| TreeMap.ValueOfInSearchTree | TreeMap.h:117-131 | in a search tree `valueOf` raises exactly for absent keys, and otherwise returns the first in-order value for the key |
| TreeMap.Insert | TreeMap.h:245-268 | `insert` hangs a new leaf in a null slot below the last node of its path |
| TreeMap.InsertAddsEntry | TreeMap.h:245-268 | insertion adds exactly the new entry to the in-order multiset, and `count` grows by one |
| TreeMap.InsertAddsKey | TreeMap.h:245-268 | insertion adds the key to the key set |
| TreeMap.InsertKeepsBst | TreeMap.h:245-268 | insertion keeps the search-tree property, with equal keys going right |
| TreeMap.InsertFollowsSearchPath | TreeMap.h:251-265 | each step of the new node's path goes left exactly when the key is below the key of the node it leaves |
| TreeMap.FindAfterInsert | TreeMap.h:245-268 | after inserting a key `find` could not reach, `find` reaches the new node |
| TreeMap.ValueOfAfterInsert | TreeMap.h:245-268 | inserting one key leaves every other key's lookup unchanged |
| TreeMap.SetValue | TreeMap.h:106-115 | a write through the returned reference changes one value and keeps the keys, the count and the search-tree property; the in-order sequence changes only at the node's rank, where the entry keeps its key and takes the new value |
| TreeMap.SetValueEntries | TreeMap.h:106-115 | as multisets of entries, that write takes out the node's old entry and puts in the key with the new value |
| TreeMap.ValueOfAfterSetValue | TreeMap.h:106-131 | after that write every key whose `find` reaches the written node reads the new value, and every other lookup is unchanged |
| TreeMap.Index | TreeMap.h:106-115 | `operator[]` returns the found node and leaves the tree alone, or inserts `(key, default)`; either way `find` then reaches the returned node |
| TreeMap.Assign | TreeMap.h:106-115 | after `map[key] = v` the key reads `v`, other keys read as before, and the count grows exactly when the key was absent; for a key `find` reaches, the in-order sequence changes only at that node's rank, and otherwise its entries gain exactly `(key, v)` |
| TreeMap.IndexThenWrite | TreeMap.h:106-115 | writing through the reference `operator[]` returns has the same in-order effect: one entry rewritten when the key was reached, one entry `(key, v)` added when it was not |
| TreeMap.FromList | TreeMap.h:50-53 | the initializer-list constructor builds a search tree holding exactly the listed entries, duplicates included |
| TreeMap.IndexAll | TreeMap.h:106-115 | a map filled only by `operator[]` is a search tree whose count equals its number of distinct keys |
| TreeMap.IndexKeepsKeysDistinct | TreeMap.h:106-115 | `operator[]` keeps the keys of a search tree distinct |
| TreeMap.InOrderAround | TreeMap.h:168-192 | a subtree covers one stretch of the in-order sequence |
| TreeMap.ReplaceAtInOrder | TreeMap.h:183-190 | replacing a subtree replaces its stretch of the in-order sequence and nothing else |
| TreeMap.SpliceDropsEntry | TreeMap.h:178-190 | splicing out a node with at most one child drops exactly its entry from in-order |
| TreeMap.Remove | TreeMap.h:168-192 | `remove(end())` raises; otherwise the entry at the node's rank leaves the in-order sequence and the count drops by one |
| TreeMap.RemoveKeepsKeys | TreeMap.h:168-192 | `remove` keeps every key except possibly the removed node's, and keeps the search-tree property |
| TreeMap.RemoveKey | TreeMap.h:164-166 | `remove(key)` raises exactly when `find` reaches null, which in a search tree is when the key is absent |
| TreeMap.RemoveTwoChildren | TreeMap.h:173-191 | with two children the splice removes the successor's entry, while the target stays linked |
| TreeMap.RemoveShiftsHeldIterator | TreeMap.h:168-192 | an iterator held across the removal of another node is read at its path: after removing key 3 from a left spine 5, 3, 2, 1, the path that reached key 2 reaches key 1 |
| TreeMap.Increment | TreeMap.h:337-342 | `++` raises on `end()` and otherwise moves to the next in-order position |
| TreeMap.PredecessorOfLater | TreeMap.h:350-360 | every node after the first has the previous in-order node as its predecessor |
| TreeMap.Decrement | TreeMap.h:350-360 | `--` raises on the empty tree and at `begin()`, moves `end()` to the last node, and moves any other node to the previous position |
| TreeMap.Deref | TreeMap.h:368-372 | `*` raises on `end()` and otherwise yields the in-order entry at the node's rank |
| TreeMap.IsEmpty | TreeMap.h:102-104 | `isEmpty` holds exactly when the count is zero and exactly when `begin() == end()` |
| TreeMap.Traverse | TreeMap.h:337-342 | iterating from `begin()` with `++` until `end()` visits exactly the in-order node sequence |
| TreeMap.TraversalFacts | TreeMap.h:286-295 | that traversal visits every node once, in in-order, with non-decreasing keys on a search tree |
| TreeMap.IterNext | TreeMap.h:337-342 | `++` moves the iteration from position n to position n+1 |
| TreeMap.IterAtPosition | TreeMap.h:368-372 | position n of the iteration dereferences to the n-th in-order entry |
| TreeMap.Equals | TreeMap.h:198-205 | `operator==` answers whether every entry of the left map is found in the right map with an equal value |
| TreeMap.CoversNotSymmetric | TreeMap.h:198-205 | the empty map equals every map, but a one-entry map does not equal the empty map |
| HashMap.HashIndex | HashMap.h:241-243 | the bucket of a key is below 1000 |
| HashMap.OffsetOfUpdate | HashMap.h:133-150 | replacing one chain changes the entry count by the difference in that chain's length |
| HashMap.UpdateKeepsValid | HashMap.h:133-150 | replacing a chain by one whose keys hash to the same bucket keeps the map valid |
| HashMap.PlacesMatch | HashMap.h:291-306 | the iteration order names each entry's bucket and chain position |
| HashMap.NextNonEmpty | HashMap.h:245-255 | the forward scan stops at a non-empty chain or at the table end |
| HashMap.NextNonEmptySkips | HashMap.h:298-304 | every chain the forward scan passes over is empty |
| HashMap.PrevNonEmpty | HashMap.h:318-320 | the backward scan stops at a non-empty chain or at chain 0 |
| HashMap.PrevNonEmptySkips | HashMap.h:318-320 | every chain the backward scan passes over is empty |
| HashMap.Begin | HashMap.h:214-238 | `begin()` is a chain head of the map, or `end()` |
| HashMap.BeginIsFirst | HashMap.h:214-238 | `begin()` is the first iteration position, and equals `end()` exactly when there are no entries |
| HashMap.NullIteratorIsEnd | HashMap.h:283-287 | an iterator built with a null node equals `end()` of its map whatever index it was given, and one built with a node is never `end()` and keeps its index |
| HashMap.WalkEnd | HashMap.h:219-221 | `end()` is the position just past the last entry, and dereferencing it raises |
| HashMap.Increment | HashMap.h:291-306 | `++` raises exactly on a null node and otherwise yields an iterator of the map |
| HashMap.IncrementIsNext | HashMap.h:291-306 | `++` moves each iteration position to the next one, and the last to `end()` |
| HashMap.Decrement | HashMap.h:314-333 | `--` from a non-head node yields a null node at the same index; from a head or `end()` it yields the tail of an earlier chain or raises |
| HashMap.DecrementIsPrevious | HashMap.h:314-333 | from `end()` or a chain head, `--` moves to the previous iteration position and raises at the first one, including on an empty map |
| HashMap.DecrementInsideChain | HashMap.h:329-330 | from a non-head node, `--` yields an iterator that is no position and not `end()`, on which `*` and `++` raise |
| HashMap.Deref | HashMap.h:341-345 | `*` raises exactly on a null node and otherwise yields an entry of the iterator's chain |
| HashMap.DerefAt | HashMap.h:341-345 | each iteration position dereferences to the entry at that position |
| HashMap.Empty | HashMap.h:49-56 | a new map has no entries and a zero counter |
| HashMap.IsEmptyIffNoEntries | HashMap.h:129-131 | on a consistent map `getSize` is the number of entries and `isEmpty` holds exactly when `begin() == end()` |
| HashMap.SizeBoundsEntries | HashMap.h:195-197 | on every valid map `getSize` is at least the number of entries and equals it exactly on consistent maps; `isEmpty` implies there are no entries |
| HashMap.FindNode | HashMap.h:257-266 | `findNode` reaches a node of the key's chain holding the key |
| HashMap.ValueOf | HashMap.h:152-164 | `valueOf` raises exactly when `findNode` finds nothing, and otherwise returns a value paired with the key in its chain |
| HashMap.Find | HashMap.h:166-172 | `find` of an absent key equals `end()`; otherwise it names the found node in the key's bucket |
| HashMap.ValueOfAbsent | HashMap.h:257-266 | when `findNode` finds nothing, no entry of the map holds the key |
| HashMap.ValueOfPresent | HashMap.h:152-172 | the found node is the first entry with the key in iteration order, and `find` names its position |
| HashMap.ValueOfSpec | HashMap.h:152-172 | `valueOf` raises exactly when no entry holds the key, and otherwise returns the first matching entry's value at the position `find` names |
| HashMap.Index | HashMap.h:133-150 | `operator[]` leaves a map whose head holds the key alone, makes a one-node chain for an empty bucket, and otherwise appends a node and returns the old tail's slot |
| HashMap.Append | HashMap.h:138-148 | a new node at the chain's tail adds one entry and one to the counter and keeps the map valid |
| HashMap.IndexEntries | HashMap.h:133-150 | `operator[]` adds exactly `(key, default)` to the entries unless the key heads its chain |
| HashMap.IndexKeepsConsistent | HashMap.h:133-150 | `operator[]` keeps the counter equal to the number of entries |
| HashMap.IndexThenValueOf | HashMap.h:133-164 | after `operator[]` the key reads its old value if it had one, and the default otherwise |
| HashMap.IndexDuplicates | HashMap.h:142-148 | a key present but not at its chain's head ends up in two nodes |
| HashMap.IndexSlot | HashMap.h:133-150 | the returned slot holds the requested key exactly when the chain was empty, or starts or ends with the key |
| HashMap.Assign | HashMap.h:58-61 | `map[key] = value` keeps the map valid and counts like `operator[]`, and its chains are those `operator[]` left with only the returned slot's value replaced |
| HashMap.AssignEntries | HashMap.h:133-150 | in iteration order, the entries after `map[key] = value` are those after `operator[]` with one entry, at the returned slot's position, rewritten to `value` under its own key |
| HashMap.AssignThenValueOf | HashMap.h:133-164 | after `map[key] = value` the key reads `value` only if the slot written was its own; otherwise it reads its old value or the default |
| HashMap.AssignThenOtherKey | HashMap.h:133-150 | after `map[key] = value` every other key reads as before, except the old tail's key when `operator[]` appended to a chain not headed by `key`: that key now reads `value` |
| HashMap.Remove | HashMap.h:178-193 | `remove(it)` raises exactly for another map's iterator or `end()`; otherwise the chain becomes the part after the node and the counter drops by one |
| HashMap.RemoveKey | HashMap.h:174-176 | `remove(key)` raises exactly when `findNode` finds nothing |
| HashMap.RemoveKeyThenFind | HashMap.h:174-193 | after `remove(key)` the key's chain is what followed the first node with the key, and `find(key)` is `end()` exactly when no later node in it holds the key |
| HashMap.RemoveKeyAbsent | HashMap.h:174-180 | `remove(key)` raises exactly when no entry holds the key |
| HashMap.RemoveSucceeds | HashMap.h:178-193 | on an iterator naming a node, `remove` succeeds, keeps the map valid and drops the counter by one |
| HashMap.RemoveEntries | HashMap.h:181-192 | `remove(it)` cuts the node and all nodes before it in its chain out of the iteration order |
| HashMap.RemoveConsistency | HashMap.h:181-192 | on a consistent map the result is consistent exactly when the node was a chain head |
| HashMap.LockstepSpec | HashMap.h:199-208 | the walk answers true exactly when the first sequence is a prefix of the second, and dereferences `end()` exactly when the second is a proper prefix of the first |
| HashMap.EqualsOfConsistent | HashMap.h:199-208 | on consistent maps `a == b` never raises and answers whether the two iteration sequences are equal |
| HashMap.Equals | HashMap.h:199-208 | `operator==` compares the counters and then walks both maps with iterators in step, as the reference walk over the iteration sequences does |
| HashMap.AssignWritesPreviousTail | HashMap.h:142-149 | with keys 1 and 2 in one chain, `m[1] = 10; m[2] = 20` leaves key 1 reading 20 and key 2 reading 0 |
| HashMap.IndexAppendsDuplicate | HashMap.h:142-148 | on that map, `operator[]` for key 2 appends a second node for key 2 |
| HashMap.RemoveDropsEarlierEntries | HashMap.h:181-192 | on that map, removing key 2 also loses key 1, while the counter still says one |
| HashMap.RemoveKeyLeavesDuplicate | HashMap.h:174-193 | after `operator[]` gave key 2 a second node on that map, `remove(2)` leaves a node for key 2 that `find(2)` still reaches |
| HashMap.RemoveShiftsHeldIterator | HashMap.h:178-193 | on that map, removing key 1's node moves key 2's node to the head, and the iterator `find(2)` returned before no longer names a node |

## Left out

- Memory management is not modelled: destructors, `erase`, `delete`,
  allocation failure, and the double delete of bucket heads. The model has
  no allocator.
- Copy and move construction and assignment are not modelled. `HashMap`
  copy assignment is repeated `map[key] = value` (`HashMap.Assign`).
  `TreeMap` copy assignment removes from a freed node, which is undefined.
- Default-constructed `HashMap` iterators, whose map pointer is null, are
  not modelled. In the source `++`, `--` and `*` throw on them, and so does
  `remove`, since they belong to no map. Every `Iter` of the model has an
  owner.
- The `TreeMap` iterator copy constructor is not modelled. It leaves the
  recorded root uninitialised, so `--` on a copy is undefined.
- Postfix `++`/`--` are not modelled. In `TreeMap::ConstIterator` they
  copy the pointer `this` rather than the iterator, so they return the
  moved iterator (TreeMap.h:344-348, 362-366). In `HashMap::ConstIterator`
  (HashMap.h:308-312, 335-339), `HashMap::Iterator` (HashMap.h:377-381,
  388-392) and `TreeMap::Iterator` (TreeMap.h:403-407, 414-418) they copy
  `*this` first and return the old position.
- The `HashMap` iterator copy constructor (HashMap.h:288) is not modelled.
  It re-runs the normalising constructor (HashMap.h:283-287), so a copy of
  the null-node iterator that `--` inside a chain leaves
  (`HashMap.DecrementInsideChain`) is `end()`. Model iterators are values,
  and a copy keeps the original's index.
- The `Iterator`/`ConstIterator` split, `operator->` and `const_cast` are
  not modelled.
- Iterator equality is not pointer equality. The source compares node
  pointers: `currNode` alone in `TreeMap` (TreeMap.h:378-380), and map,
  node and index in `HashMap` (HashMap.h:351-353). The model compares
  `Iter` values instead: the node's path in `TreeMap`, and the owner, the
  position in the chain and the index in `HashMap`. The two agree on
  iterators taken from the same unchanged map.
- `std::hash` is not modelled. Each map carries its hash as a function
  parameter, fixed when the map is created.
- `size_t` wrap-around of `HashMap`'s counter is not modelled. Counters
  are unbounded naturals, and `Valid` keeps the counter at least the
  number of entries, so `remove` never takes it below zero.
- TreeMap.Remove: requires a target with at most one child. The two-child
  branch frees a node that stays linked, so it has no well-defined result.
  `TreeMap.RemoveTwoChildren` describes the splice it performs.
- TreeMap keys are `int`. The source works for any `KeyType` with `<`.
- HashMap.Decrement: requires a positive bucket index when moving back
  from a null node or a chain head. That excludes a chain head in bucket 0,
  and a null-node iterator with index 0, which is what `--` inside chain 0
  leaves behind (`end()` itself has index 1000). From bucket 0 the
  source's unsigned index wraps and reads outside the table. The "Cannot
  decrement" error is reported as `DecrementBegin`.
- HashMap.DecrementIsPrevious: requires a positive bucket index, for the
  same reason.
- HashMap.Remove: requires an iterator of this map to be `end()` or to
  name an existing node.
  - The excluded null-node iterators with an index other than 1000 come
    from `--` inside a chain (`HashMap.DecrementInsideChain`). The source
    is not `end()` on them, so it reads the key through a null node
    (HashMap.h:181-182). That is undefined.
  - The excluded positions past the end of a chain arise from iterators
    held across a removal. A model iterator is a position in a chain, and
    it is read again at that position in the new map. A source iterator
    keeps its node pointer, which stays valid while that node is linked.
    So the two differ once a removal shifts positions, and the model has
    no node identity to follow. `HashMap.RemoveShiftsHeldIterator` shows
    the case: on the map with keys 1 and 2 in one chain, `find(2)` is
    position 1. After `remove(find(1))` that position is gone, while the
    source's iterator still names key 2's node and `remove` on it would
    succeed.
- TreeMap.Remove: an iterator held across the removal of another node is
  likewise read again at its path, not at its node. After `remove(3)` on
  the left spine 5, 3, 2, 1 the path that named key 2 names key 1, while
  the source's pointer still names key 2 (`TreeMap.RemoveShiftsHeldIterator`).
  `TreeMap` iterators also carry no owner. The source's `remove(it)`
  (TreeMap.h:168-192) does not check that the iterator belongs to the map,
  so the model applies any path to the given tree.
- TreeMap.Increment, TreeMap.Deref: require an iterator's path to name a
  node of the tree. Iterators to removed nodes dangle in the source.
- TreeMap.Decrement: requires the same of the iterator's path.
  - The root a `TreeMap` iterator records when it is built (TreeMap.h:328-331)
    is not modelled. `--` uses the current tree's root instead.
  - This gives a different answer for an iterator taken while the tree
    was empty and decremented after an insertion. An example is `end()`
    of an empty map, held across `m[1]`. The source throws "Cannot
    decrement when tree is emptee", while the model moves to the maximum
    of the current tree.
  - It also differs for an iterator whose recorded root was later
    removed.
- `main.cpp` is a timing benchmark and is not part of this model.

=== FILE: common.dfy ===
/** Vocabulary shared by the two container models: optional values, the
    failures both containers raise, and the first-match search over a
    sequence of entries that both lookups reduce to. */
module Common {

  datatype Option<+T> = None | Some(value: T)

  /** Every failure of the containers is a `std::out_of_range`; the tag
      records which check raised it. */
  datatype Error =
    | NotFound        // valueOf of a key that is not present
    | RemoveInvalid   // remove of end(), of a null node or of another map's iterator
    | IncrementEnd    // ++ on an iterator whose node is null
    | DecrementEmpty  // -- on an iterator of an empty tree
    | DecrementBegin  // -- when there is no earlier entry
    | DereferenceEnd  // * on an iterator whose node is null

  datatype Result<+T> = Ok(value: T) | Err(error: Error)

  /** Position of the first entry of `s` whose key is `k`: the walk along a
      hash chain that stops at the first node with that key. */
  function FirstIndex<K(==), V>(s: seq<(K, V)>, k: K): (r: Option<nat>)
    ensures r.Some? ==> r.value < |s| && s[r.value].0 == k
  {
    if |s| == 0 then None
    else if s[0].0 == k then Some(0)
    else match FirstIndex(s[1..], k)
      case None => None
      case Some(i) => Some(i + 1)
  }

  /** No entry before the first match holds the key, and there is no match
      exactly when no entry holds the key. */
  lemma {:induction false} FirstIndexSpec<K, V>(s: seq<(K, V)>, k: K)
    ensures FirstIndex(s, k).Some? ==> forall j | 0 <= j < FirstIndex(s, k).value :: s[j].0 != k
    ensures FirstIndex(s, k).None? <==> forall j | 0 <= j < |s| :: s[j].0 != k
  {
    if |s| > 0 && s[0].0 != k {
      FirstIndexSpec(s[1..], k);
      assert forall j | 1 <= j < |s| :: s[j] == s[1..][j - 1];
    }
  }

  /** The first-match position is determined by its defining properties. */
  lemma {:induction false} FirstIndexIs<K, V>(s: seq<(K, V)>, k: K, i: nat)
    requires i < |s| && s[i].0 == k
    requires forall j | 0 <= j < i :: s[j].0 != k
    ensures FirstIndex(s, k) == Some(i)
  {
    if i > 0 {
      assert s[0].0 != k;
      assert forall j | 0 <= j < i - 1 :: s[1..][j] == s[j + 1];
      FirstIndexIs(s[1..], k, i - 1);
    }
  }

  function Shift(o: Option<nat>, n: nat): Option<nat> {
    match o
    case None => None
    case Some(i) => Some(i + n)
  }

  /** A match in the front part of a concatenation is the first match of the whole. */
  lemma FirstIndexInFront<K, V>(a: seq<(K, V)>, b: seq<(K, V)>, k: K)
    requires FirstIndex(a, k).Some?
    ensures FirstIndex(a + b, k) == FirstIndex(a, k)
  {
    var i := FirstIndex(a, k).value;
    FirstIndexSpec(a, k);
    assert forall j | 0 <= j <= i :: (a + b)[j] == a[j];
    FirstIndexIs(a + b, k, i);
  }

  /** Without a match in the front part, the first match of a concatenation
      is the first match of the back part, shifted by the front's length. */
  lemma FirstIndexPastFront<K, V>(a: seq<(K, V)>, b: seq<(K, V)>, k: K)
    requires FirstIndex(a, k).None?
    ensures FirstIndex(a + b, k) == Shift(FirstIndex(b, k), |a|)
  {
    FirstIndexSpec(a, k);
    FirstIndexSpec(b, k);
    FirstIndexSpec(a + b, k);
    assert forall x | 0 <= x < |a| :: (a + b)[x] == a[x];
    assert forall x | |a| <= x < |a| + |b| :: (a + b)[x] == b[x - |a|];
    match FirstIndex(b, k)
    case Some(j) =>
      FirstIndexIs(a + b, k, |a| + j);
    case None =>
  }

  /** The first match depends only on the keys, not on the values. */
  lemma {:induction false} FirstIndexSameKeys<K, V>(s: seq<(K, V)>, s': seq<(K, V)>, k: K)
    requires |s| == |s'| && forall j | 0 <= j < |s| :: s[j].0 == s'[j].0
    ensures FirstIndex(s, k) == FirstIndex(s', k)
  {
    if |s| > 0 && s[0].0 != k {
      assert forall j | 0 <= j < |s| - 1 :: s[1..][j].0 == s'[1..][j].0 by {
        assert forall j | 0 <= j < |s| - 1 :: s[1..][j] == s[j + 1] && s'[1..][j] == s'[j + 1];
      }
      FirstIndexSameKeys(s[1..], s'[1..], k);
    }
  }

  /** Updating a concatenation updates the part the position falls in. */
  lemma UpdateLeft<T>(a: seq<T>, b: seq<T>, i: nat, e: T)
    requires i < |a|
    ensures (a + b)[i := e] == a[i := e] + b
  {
  }

  lemma UpdateRight<T>(a: seq<T>, b: seq<T>, i: nat, e: T)
    requires i < |b|
    ensures (a + b)[|a| + i := e] == a + b[i := e]
  {
  }

  lemma UpdateMiddle<T>(a: seq<T>, m: seq<T>, b: seq<T>, j: nat, e: T)
    requires j < |m|
    ensures |a| + j < |a + m + b| && (a + m + b)[|a| + j] == m[j]
    ensures (a + m + b)[|a| + j := e] == a + m[j := e] + b
  {
    UpdateLeft(m, b, j, e);
    UpdateRight(a, m + b, j, e);
    assert a + m + b == a + (m + b);
    assert a + m[j := e] + b == a + (m[j := e] + b);
  }
}

=== FILE: hash_map.dfy ===
/** A hash map with a fixed table of bucket chains (`aisdi::HashMap`).

    Chain `b` is the linked list hanging off `array[b]`, kept here as a
    sequence in `next` order, so a node is named by its chain and its
    position in it. The constructor of a node sets `prev` to null and the
    only later assignment to a `prev` copies another node's `prev`, so every
    `prev` stays null: the chains in `next` order are all the structure
    there is, and every branch of the source that tests `prev` is taken
    with `prev` null. */
module HashMap {
  import opened Common

  /** `ARRAYLENGTH`: the size of the bucket table. */
  const ArrayLength: nat := 1000

  /** A map object. `id` stands for its address, which iterators record and
      `remove` compares; `hash` is `std::hash<KeyType>`; `buckets[b]` is
      chain `b`; `number` is the counter that `getSize` reports. */
  datatype Map<!K, V> = Map(id: nat, hash: K -> nat, buckets: seq<seq<(K, V)>>, number: nat)

  /** A `ConstIterator`: the map it belongs to, its node as a position in
      chain `index` (`None` for null), and `index`. */
  datatype Iter = Iter(owner: nat, node: Option<nat>, index: nat)

  /** The chain, and the position in it, of the value `operator[]` returns
      a reference to. */
  type Slot = (nat, nat)

  // ---------------------------------------------------------------------------
  // Chains and the iteration order

  /** `hashingFunc`: the bucket of a key. */
  function HashIndex<K, V>(m: Map<K, V>, key: K): (b: nat)
    ensures b < ArrayLength
  {
    m.hash(key) % ArrayLength
  }

  /** The entries of chains `lo` to `hi - 1`, chain after chain, each from
      head to tail. */
  function Chains<K, V>(bs: seq<seq<(K, V)>>, lo: nat, hi: nat): seq<(K, V)>
    requires lo <= hi <= |bs|
    decreases hi - lo
  {
    if lo == hi then [] else Chains(bs, lo, hi - 1) + bs[hi - 1]
  }

  /** All entries in iteration order. */
  function Entries<K, V>(m: Map<K, V>): seq<(K, V)> {
    Chains(m.buckets, 0, |m.buckets|)
  }

  /** How many entries iteration visits before chain `b`. */
  function Offset<K, V>(bs: seq<seq<(K, V)>>, b: nat): nat
    requires b <= |bs|
  {
    if b == 0 then 0 else Offset(bs, b - 1) + |bs[b - 1]|
  }

  /** How many entries the map holds. */
  function EntryCount<K, V>(m: Map<K, V>): nat {
    Offset(m.buckets, |m.buckets|)
  }

  /** The nodes of chain `b`. */
  function Row<K, V>(bs: seq<seq<(K, V)>>, b: nat): seq<(nat, nat)>
    requires b < |bs|
  {
    seq(|bs[b]|, j => (b, j))
  }

  /** The nodes of chains `0` to `hi - 1` in iteration order. */
  function Places<K, V>(bs: seq<seq<(K, V)>>, hi: nat): seq<(nat, nat)>
    requires hi <= |bs|
  {
    if hi == 0 then [] else Places(bs, hi - 1) + Row(bs, hi - 1)
  }

  /** All nodes in iteration order: the reference order for the iterators. */
  function Order<K, V>(m: Map<K, V>): seq<(nat, nat)> {
    Places(m.buckets, |m.buckets|)
  }

  /** Node `p` exists and is the `i`-th one visited. */
  predicate Locates<K, V>(bs: seq<seq<(K, V)>>, p: (nat, nat), i: nat) {
    p.0 < |bs| && p.1 < |bs[p.0]| && Offset(bs, p.0) + p.1 == i
  }

  /** The table has `ARRAYLENGTH` chains. */
  predicate Shaped<K, V>(m: Map<K, V>) {
    |m.buckets| == ArrayLength
  }

  /** The shape every map the public operations produce has: a full table,
      every entry in the chain of its key's bucket, and a counter no smaller
      than the number of entries. */
  predicate Valid<K, V>(m: Map<K, V>) {
    && Shaped(m)
    && (forall b {:trigger Placed(m, b)} | 0 <= b < |m.buckets| :: Placed(m, b))
    && EntryCount(m) <= m.number
  }

  /** Every key in bucket `b` hashes to `b`. */
  predicate Placed<K, V>(m: Map<K, V>, b: nat)
    requires b < |m.buckets|
  {
    forall j | 0 <= j < |m.buckets[b]| :: HashIndex(m, m.buckets[b][j].0) == b
  }

  /** The counter equals the number of entries. `remove` of a node that is
      not a chain head breaks this (see `RemoveDropsEarlierEntries`). */
  predicate Consistent<K, V>(m: Map<K, V>) {
    Valid(m) && m.number == EntryCount(m)
  }

  lemma {:induction false} ChainsSplit<K, V>(bs: seq<seq<(K, V)>>, lo: nat, mid: nat, hi: nat)
    requires lo <= mid <= hi <= |bs|
    ensures Chains(bs, lo, hi) == Chains(bs, lo, mid) + Chains(bs, mid, hi)
    decreases hi
  {
    if hi > mid {
      ChainsSplit(bs, lo, mid, hi - 1);
      assert Chains(bs, lo, mid) + Chains(bs, mid, hi - 1) + bs[hi - 1]
        == Chains(bs, lo, mid) + (Chains(bs, mid, hi - 1) + bs[hi - 1]);
    }
  }

  lemma {:induction false} ChainsUnchanged<K, V>(bs: seq<seq<(K, V)>>, b: nat, c: seq<(K, V)>, lo: nat, hi: nat)
    requires b < |bs| && lo <= hi <= |bs| && (b < lo || hi <= b)
    ensures Chains(bs[b := c], lo, hi) == Chains(bs, lo, hi)
    decreases hi - lo
  {
    if lo < hi {
      ChainsUnchanged(bs, b, c, lo, hi - 1);
    }
  }

  lemma {:induction false} OffsetIsLength<K, V>(bs: seq<seq<(K, V)>>, hi: nat)
    requires hi <= |bs|
    ensures Offset(bs, hi) == |Chains(bs, 0, hi)|
  {
    if hi > 0 {
      OffsetIsLength(bs, hi - 1);
    }
  }

  /** Empty chains contribute nothing. */
  lemma {:induction false} OffsetSkipEmpty<K, V>(bs: seq<seq<(K, V)>>, lo: nat, hi: nat)
    requires lo <= hi <= |bs|
    requires forall x | lo <= x < hi :: bs[x] == []
    ensures Offset(bs, hi) == Offset(bs, lo)
    decreases hi
  {
    if lo < hi {
      OffsetSkipEmpty(bs, lo, hi - 1);
    }
  }

  /** Replacing one chain changes the count of the entries in the chains
      below `hi` by the difference in length, when it is one of them. */
  lemma {:induction false} OffsetOfUpdate<K, V>(bs: seq<seq<(K, V)>>, b: nat, c: seq<(K, V)>, hi: nat)
    requires b < |bs| && hi <= |bs|
    ensures b < hi ==> Offset(bs, hi) >= |bs[b]|
    ensures Offset(bs[b := c], hi) == if b < hi then Offset(bs, hi) - |bs[b]| + |c| else Offset(bs, hi)
  {
    if hi > 0 {
      OffsetOfUpdate(bs, b, c, hi - 1);
    }
  }

  /** Replacing one chain replaces its entries in the iteration sequence. */
  lemma ChainsOfUpdate<K, V>(bs: seq<seq<(K, V)>>, b: nat, c: seq<(K, V)>)
    requires b < |bs|
    ensures Chains(bs, 0, |bs|) == Chains(bs, 0, b) + bs[b] + Chains(bs, b + 1, |bs|)
    ensures Chains(bs[b := c], 0, |bs|) == Chains(bs, 0, b) + c + Chains(bs, b + 1, |bs|)
  {
    var bs' := bs[b := c];
    ChainsSplit(bs, 0, b, |bs|);
    ChainsSplit(bs, b, b + 1, |bs|);
    ChainsSplit(bs', 0, b, |bs|);
    ChainsSplit(bs', b, b + 1, |bs|);
    ChainsUnchanged(bs, b, c, 0, b);
    ChainsUnchanged(bs, b, c, b + 1, |bs|);
    assert Chains(bs, b, b + 1) == [] + bs[b];
    assert Chains(bs', b, b + 1) == [] + c;
  }

  /** Replacing a chain by one whose keys belong to the same bucket keeps a
      map valid, when the counter covers the new number of entries. */
  lemma UpdateKeepsValid<K, V>(m: Map<K, V>, b: nat, c: seq<(K, V)>, n: nat)
    requires Valid(m) && b < ArrayLength
    requires forall j | 0 <= j < |c| :: HashIndex(m, c[j].0) == b
    requires EntryCount(m) - |m.buckets[b]| + |c| <= n
    ensures EntryCount(m) >= |m.buckets[b]|
    ensures EntryCount(m.(buckets := m.buckets[b := c])) == EntryCount(m) - |m.buckets[b]| + |c|
    ensures Valid(m.(buckets := m.buckets[b := c], number := n))
  {
    var m' := m.(buckets := m.buckets[b := c], number := n);
    OffsetOfUpdate(m.buckets, b, c, |m.buckets|);
    forall x | 0 <= x < |m'.buckets|
      ensures Placed(m', x)
    {
      if x != b {
        assert Placed(m, x);
      }
    }
  }

  lemma {:induction false} PlacesLength<K, V>(bs: seq<seq<(K, V)>>, hi: nat)
    requires hi <= |bs|
    ensures |Places(bs, hi)| == Offset(bs, hi)
  {
    if hi > 0 {
      PlacesLength(bs, hi - 1);
    }
  }

  /** Every position of the iteration order names an existing node, at
      that node's offset. */
  lemma {:induction false} PlacesMatch<K, V>(bs: seq<seq<(K, V)>>, hi: nat)
    requires hi <= |bs|
    ensures |Places(bs, hi)| == Offset(bs, hi)
    ensures forall i | 0 <= i < |Places(bs, hi)| :: Places(bs, hi)[i].0 < hi && Locates(bs, Places(bs, hi)[i], i)
  {
    PlacesLength(bs, hi);
    if hi > 0 {
      PlacesMatch(bs, hi - 1);
      var ps := Places(bs, hi);
      var front := Places(bs, hi - 1);
      forall i | 0 <= i < |ps|
        ensures ps[i].0 < hi && Locates(bs, ps[i], i)
      {
        if i < |front| {
          assert ps[i] == front[i];
        } else {
          assert ps[i] == (hi - 1, i - |front|);
        }
      }
    }
  }

  /** Node `j` of chain `b` holds the entry at position `Offset(b) + j` of
      the iteration sequence. */
  lemma EntryAt<K, V>(bs: seq<seq<(K, V)>>, b: nat, j: nat)
    requires b < |bs| && j < |bs[b]|
    ensures |Chains(bs, 0, |bs|)| == Offset(bs, |bs|)
    ensures Offset(bs, b) + j < |Chains(bs, 0, |bs|)| && Chains(bs, 0, |bs|)[Offset(bs, b) + j] == bs[b][j]
  {
    ChainsOfUpdate(bs, b, bs[b]);
    OffsetIsLength(bs, b);
    OffsetIsLength(bs, |bs|);
    var front := Chains(bs, 0, b);
    assert (front + bs[b] + Chains(bs, b + 1, |bs|))[|front| + j] == bs[b][j];
  }

  /** Node `j` of chain `b` is visited at position `Offset(b) + j`. */
  lemma {:induction false} PlaceAt<K, V>(bs: seq<seq<(K, V)>>, hi: nat, b: nat, j: nat)
    requires b < hi <= |bs| && j < |bs[b]|
    ensures Offset(bs, b) + j < |Places(bs, hi)| && Places(bs, hi)[Offset(bs, b) + j] == (b, j)
  {
    PlacesLength(bs, hi - 1);
    if b < hi - 1 {
      PlaceAt(bs, hi - 1, b, j);
    }
  }

  /** The `i`-th iterator position: the `i`-th node in iteration order, or
      `end()` after the last. */
  function IterAt<K, V>(m: Map<K, V>, i: nat): Iter {
    if i < |Order(m)| then Iter(m.id, Some(Order(m)[i].1), Order(m)[i].0) else End(m)
  }

  // ---------------------------------------------------------------------------
  // Iterators

  /** The `ConstIterator` constructor: a null node moves the index to
      `ARRAYLENGTH`. */
  function MakeIter(owner: nat, node: Option<nat>, index: nat): Iter {
    if node.None? then Iter(owner, None, ArrayLength) else Iter(owner, node, index)
  }

  /** `end()`: an iterator of the map with a null node. */
  function End<K, V>(m: Map<K, V>): Iter {
    MakeIter(m.id, None, 0)
  }

  /** Every iterator of a map built with a null node is that map's `end()`,
      whatever index it was given, and no iterator built with a node is. */
  lemma NullIteratorIsEnd<K, V>(m: Map<K, V>, node: Option<nat>, index: nat)
    ensures MakeIter(m.id, node, index) == End(m) <==> node.None?
    ensures node.Some? ==> MakeIter(m.id, node, index).index == index
  {
  }

  /** The iterator names a node of `m`. */
  predicate Points<K, V>(m: Map<K, V>, it: Iter) {
    it.node.Some? && it.index < |m.buckets| && it.node.value < |m.buckets[it.index]|
  }

  /** The iterator belongs to `m` and its node, if any, is a node of `m`. */
  predicate Proper<K, V>(m: Map<K, V>, it: Iter) {
    it.owner == m.id && (it.node.Some? ==> Points(m, it))
  }

  /** The scan of `findFirstNode` and of `++`: the first non-empty chain at
      or after `from`, or the table size when there is none. */
  function NextNonEmpty<K, V>(bs: seq<seq<(K, V)>>, from: nat): (c: nat)
    requires from <= |bs|
    ensures from <= c <= |bs| && (c < |bs| ==> bs[c] != [])
    decreases |bs| - from
  {
    if from == |bs| || bs[from] != [] then from else NextNonEmpty(bs, from + 1)
  }

  /** The scan of `--`: down from `from` to the first non-empty chain,
      stopping at chain 0 whether or not it is empty. */
  function PrevNonEmpty<K, V>(bs: seq<seq<(K, V)>>, from: nat): (c: nat)
    requires from < |bs|
    ensures c <= from && (c > 0 ==> bs[c] != [])
    decreases from
  {
    if from > 0 && bs[from] == [] then PrevNonEmpty(bs, from - 1) else from
  }

  lemma {:induction false} NextNonEmptySkips<K, V>(bs: seq<seq<(K, V)>>, from: nat)
    requires from <= |bs|
    ensures forall x | from <= x < NextNonEmpty(bs, from) :: bs[x] == []
    decreases |bs| - from
  {
    if from < |bs| && bs[from] == [] {
      NextNonEmptySkips(bs, from + 1);
    }
  }

  lemma {:induction false} PrevNonEmptySkips<K, V>(bs: seq<seq<(K, V)>>, from: nat)
    requires from < |bs|
    ensures forall x | PrevNonEmpty(bs, from) < x <= from :: bs[x] == []
    decreases from
  {
    if from > 0 && bs[from] == [] {
      PrevNonEmptySkips(bs, from - 1);
    }
  }

  /** `begin()`: the head of the first non-empty chain, or `end()`. */
  function Begin<K, V>(m: Map<K, V>): (r: Iter)
    requires Shaped(m)
    ensures Proper(m, r) && (r.node.Some? ==> r.node.value == 0)
    ensures r.node.None? ==> r == End(m)
  {
    var c := NextNonEmpty(m.buckets, 0);
    MakeIter(m.id, if c < ArrayLength then Some(0) else None, c)
  }

  /** `++`: a null node raises; otherwise the next node of the chain, or the
      head of the next non-empty chain, or `end()`. */
  function Increment<K, V>(m: Map<K, V>, it: Iter): (r: Result<Iter>)
    requires Shaped(m) && Proper(m, it)
    ensures r.Err? <==> it.node.None?
    ensures r.Err? ==> r.error == IncrementEnd
    ensures r.Ok? ==> Proper(m, r.value) && (r.value.node.None? ==> r.value == End(m))
  {
    if it.node.None? then Err(IncrementEnd)
    else if it.node.value + 1 < |m.buckets[it.index]| then Ok(Iter(it.owner, Some(it.node.value + 1), it.index))
    else
      var c := NextNonEmpty(m.buckets, it.index + 1);
      if c >= ArrayLength then Ok(Iter(it.owner, None, c)) else Ok(Iter(it.owner, Some(0), c))
  }

  /** `--`: from a null node or a chain head, scan down from the previous
      chain to the tail of a non-empty one, raising when even chain 0 is
      empty; from any other node, step to `prev`, which is null. */
  function Decrement<K, V>(m: Map<K, V>, it: Iter): (r: Result<Iter>)
    requires Shaped(m) && Proper(m, it)
    requires it.node.None? || it.node.value == 0 ==> 0 < it.index <= ArrayLength
    ensures r.Err? ==> r.error == DecrementBegin
    ensures r.Ok? ==> r.value.owner == it.owner && (r.value.node.Some? ==> Points(m, r.value))
    ensures it.node.Some? && it.node.value > 0 ==> r == Ok(Iter(it.owner, None, it.index))
    ensures (it.node.None? || it.node.value == 0) && r.Ok? ==>
      r.value.index < it.index && r.value.node == Some(|m.buckets[r.value.index]| - 1)
  {
    if it.node.None? || it.node.value == 0 then
      var c := PrevNonEmpty(m.buckets, it.index - 1);
      if m.buckets[c] == [] then Err(DecrementBegin)
      else Ok(Iter(it.owner, Some(|m.buckets[c]| - 1), c))
    else
      Ok(Iter(it.owner, None, it.index))
  }

  /** `*`: a null node raises; otherwise the node's entry. */
  function Deref<K, V>(m: Map<K, V>, it: Iter): (r: Result<(K, V)>)
    requires Proper(m, it)
    ensures r.Err? <==> it.node.None?
    ensures r.Err? ==> r.error == DereferenceEnd
    ensures r.Ok? ==> r.value in m.buckets[it.index]
  {
    if it.node.None? then Err(DereferenceEnd) else Ok(m.buckets[it.index][it.node.value])
  }

  // ---------------------------------------------------------------------------
  // The map operations

  /** The constructor: every chain empty, the counter zero. */
  function Empty<K, V>(id: nat, hash: K -> nat): (m: Map<K, V>)
    ensures Consistent(m) && Entries(m) == [] && m.id == id
  {
    var m := Map(id, hash, seq(ArrayLength, _ => []), 0);
    OffsetSkipEmpty(m.buckets, 0, ArrayLength);
    OffsetIsLength(m.buckets, ArrayLength);
    m
  }

  /** `isEmpty`: the counter is zero. */
  predicate IsEmpty<K, V>(m: Map<K, V>) {
    m.number == 0
  }

  /** `getSize`: the counter. */
  function Size<K, V>(m: Map<K, V>): nat {
    m.number
  }

  /** `findNode`: the position of the first node with the key in the chain
      of the key's bucket. */
  function FindNode<K(==), V>(m: Map<K, V>, key: K): (r: Option<nat>)
    requires Shaped(m)
    ensures r.Some? ==> r.value < |m.buckets[HashIndex(m, key)]|
    ensures r.Some? ==> m.buckets[HashIndex(m, key)][r.value].0 == key
  {
    FirstIndex(m.buckets[HashIndex(m, key)], key)
  }

  /** `valueOf`: the value of the node `findNode` reaches, or
      `out_of_range`. */
  function ValueOf<K(==), V>(m: Map<K, V>, key: K): (r: Result<V>)
    requires Shaped(m)
    ensures r.Err? <==> FindNode(m, key).None?
    ensures r.Err? ==> r.error == NotFound
    ensures r.Ok? ==> (key, r.value) in m.buckets[HashIndex(m, key)]
  {
    match FindNode(m, key)
    case None => Err(NotFound)
    case Some(j) => Ok(m.buckets[HashIndex(m, key)][j].1)
  }

  /** `find`: an iterator at the node `findNode` reaches, with the key's
      bucket as its index; a null node makes it `end()`. */
  function Find<K(==), V>(m: Map<K, V>, key: K): (r: Iter)
    requires Shaped(m)
    ensures Proper(m, r)
    ensures FindNode(m, key).None? ==> r == End(m)
    ensures FindNode(m, key).Some? ==> r == Iter(m.id, FindNode(m, key), HashIndex(m, key))
  {
    MakeIter(m.id, FindNode(m, key), HashIndex(m, key))
  }

  /** `operator[]`: a key whose chain is empty gets a new one-node chain; a
      key equal to the head's is left alone and the head's value returned;
      any other key is appended at the tail of the chain, without looking
      past the head for it, and the returned slot is the old tail's. */
  function Index<K(==), V>(m: Map<K, V>, key: K, dflt: V): (r: (Map<K, V>, Slot))
    requires Valid(m)
    ensures Valid(r.0) && r.0.id == m.id && r.0.hash == m.hash
    ensures r.1.0 == HashIndex(m, key) && r.1.1 < |r.0.buckets[r.1.0]|
    ensures r.0.buckets == m.buckets[r.1.0 := r.0.buckets[r.1.0]]
    ensures var chain := m.buckets[HashIndex(m, key)];
      && (chain == [] ==> r.0.buckets[r.1.0] == [(key, dflt)] && r.0.number == m.number + 1 && r.1.1 == 0)
      && (chain != [] && chain[0].0 == key ==> r.0 == m && r.1.1 == 0)
      && (chain != [] && chain[0].0 != key ==>
            r.0.buckets[r.1.0] == chain + [(key, dflt)] && r.0.number == m.number + 1 && r.1.1 == |chain| - 1)
  {
    var b := HashIndex(m, key);
    var chain := m.buckets[b];
    if chain != [] && chain[0].0 == key then (m, (b, 0))
    else (Append(m, key, dflt), (b, if chain == [] then 0 else |chain| - 1))
  }

  /** A new node with `key` and `dflt` at the tail of the key's chain, as
      both growing branches of `operator[]` make it. */
  function Append<K, V>(m: Map<K, V>, key: K, dflt: V): (r: Map<K, V>)
    requires Valid(m)
    ensures Valid(r) && r.id == m.id && r.hash == m.hash && r.number == m.number + 1
    ensures EntryCount(r) == EntryCount(m) + 1
    ensures r.buckets == m.buckets[HashIndex(m, key) := m.buckets[HashIndex(m, key)] + [(key, dflt)]]
  {
    var b := HashIndex(m, key);
    var c := m.buckets[b] + [(key, dflt)];
    assert Placed(m, b);
    assert forall j | 0 <= j < |c| :: HashIndex(m, c[j].0) == b by {
      assert forall j | 0 <= j < |m.buckets[b]| :: c[j] == m.buckets[b][j];
    }
    UpdateKeepsValid(m, b, c, m.number + 1);
    m.(buckets := m.buckets[b := c], number := m.number + 1)
  }

  /** `(*this)[key] = value`, as the initializer-list constructor and the
      copy assignment use it: write `value` into the slot `operator[]`
      returns. */
  function Assign<K(==), V>(m: Map<K, V>, key: K, value: V, dflt: V): (r: Map<K, V>)
    requires Valid(m)
    ensures Valid(r) && r.id == m.id && r.hash == m.hash && r.number == Index(m, key, dflt).0.number
    ensures EntryCount(r) == EntryCount(Index(m, key, dflt).0)
    ensures WritesSlot(Index(m, key, dflt).0.buckets, r.buckets, Index(m, key, dflt).1, value)
  {
    var (m', s) := Index(m, key, dflt);
    var chain := m'.buckets[s.0];
    var c := chain[s.1 := (chain[s.1].0, value)];
    assert Placed(m', s.0);
    assert forall j | 0 <= j < |c| :: HashIndex(m', c[j].0) == s.0 by {
      assert forall j | 0 <= j < |c| :: c[j].0 == chain[j].0;
    }
    UpdateKeepsValid(m', s.0, c, m'.number);
    m'.(buckets := m'.buckets[s.0 := c])
  }

  /** `map[key] = value` writes `value` into the entry of the slot
      `operator[]` returns, at its place in the iteration order, and changes
      nothing else. */
  lemma AssignEntries<K, V>(m: Map<K, V>, key: K, value: V, dflt: V)
    requires Valid(m)
    ensures Rewritten(Entries(Index(m, key, dflt).0), Entries(Assign(m, key, value, dflt)),
      Offset(Index(m, key, dflt).0.buckets, HashIndex(m, key)) + Index(m, key, dflt).1.1, value)
  {
    var r := Index(m, key, dflt);
    var a := Assign(m, key, value, dflt);
    assert WritesSlot(r.0.buckets, a.buckets, r.1, value);
    EntriesWrite(r.0, a, r.1, value);
  }

  /** Rewriting one slot of the buckets rewrites one entry of the listing. */
  lemma EntriesWrite<K, V>(before: Map<K, V>, after: Map<K, V>, s: Slot, value: V)
    requires WritesSlot(before.buckets, after.buckets, s, value)
    ensures Rewritten(Entries(before), Entries(after), Offset(before.buckets, s.0) + s.1, value)
  {
    ChainsWrite(before.buckets, after.buckets, s, value);
  }

  /** `after` is `before` with the value in slot `s` (bucket, position)
      replaced by `value`, its key kept. */
  ghost predicate WritesSlot<K, V>(before: seq<seq<(K, V)>>, after: seq<seq<(K, V)>>, s: Slot, value: V) {
    && s.0 < |before| && s.1 < |before[s.0]|
    && after == before[s.0 := before[s.0][s.1 := (before[s.0][s.1].0, value)]]
  }

  /** `after` is `before` with the value of the entry at `i` replaced by
      `value`, its key kept. */
  ghost predicate Rewritten<K, V>(before: seq<(K, V)>, after: seq<(K, V)>, i: nat, value: V) {
    i < |before| && after == before[i := (before[i].0, value)]
  }

  /** Writing one slot of one chain rewrites the entry at that slot's place
      in the iteration order. */
  lemma ChainsWrite<K, V>(bs: seq<seq<(K, V)>>, bs': seq<seq<(K, V)>>, s: Slot, value: V)
    requires WritesSlot(bs, bs', s, value)
    ensures Rewritten(Chains(bs, 0, |bs|), Chains(bs', 0, |bs'|), Offset(bs, s.0) + s.1, value)
  {
    var (b, j) := s;
    ChainsOfUpdate(bs, b, bs'[b]);
    OffsetIsLength(bs, b);
    UpdateMiddle(Chains(bs, 0, b), bs[b], Chains(bs, b + 1, |bs|), j, (bs[b][j].0, value));
  }

  /** `remove(it)`: an iterator of another map or `end()` raises; otherwise
      the node's bucket takes the node's `next` as its head (the branch for
      a null `prev`, which every node has), so the chain becomes the part
      after the node, and the counter drops by one. */
  function Remove<K, V>(m: Map<K, V>, it: Iter): (r: Result<Map<K, V>>)
    requires Valid(m)
    requires it.owner == m.id ==> Proper(m, it) && (it.node.None? ==> it.index == ArrayLength)
    ensures r.Err? <==> it.owner != m.id || it == End(m)
    ensures r.Err? ==> r.error == RemoveInvalid
    ensures r.Ok? ==> Valid(r.value) && r.value.id == m.id && r.value.hash == m.hash
    ensures r.Ok? ==> r.value.number == m.number - 1
    ensures r.Ok? ==> EntryCount(r.value) == EntryCount(m) - it.node.value - 1
    ensures r.Ok? ==> r.value.buckets == m.buckets[it.index := m.buckets[it.index][it.node.value + 1..]]
  {
    if m.id != it.owner || it == End(m) then Err(RemoveInvalid)
    else
      var chain := m.buckets[it.index];
      var b := HashIndex(m, chain[it.node.value].0);
      var c := chain[it.node.value + 1..];
      assert Placed(m, it.index);
      assert b == it.index;
      assert forall j | 0 <= j < |c| :: HashIndex(m, c[j].0) == b by {
        assert forall j | 0 <= j < |c| :: c[j] == chain[it.node.value + 1 + j];
      }
      OffsetOfUpdate(m.buckets, b, c, |m.buckets|);
      UpdateKeepsValid(m, b, c, m.number - 1);
      Ok(m.(buckets := m.buckets[b := c], number := m.number - 1))
  }

  /** `remove(key)`: `remove(find(key))`. */
  function RemoveKey<K(==), V>(m: Map<K, V>, key: K): (r: Result<Map<K, V>>)
    requires Valid(m)
    ensures r.Err? <==> FindNode(m, key).None?
    ensures r.Err? ==> r.error == RemoveInvalid
    ensures r.Ok? ==> r.value.number == m.number - 1
  {
    Remove(m, Find(m, key))
  }

  /** What `a == b` computes over the two iteration sequences, walking them
      in step: a mismatch answers false, running out of `a` answers true,
      and running out of `b` first dereferences `end()`. */
  function Lockstep<K(==), V(==)>(x: seq<(K, V)>, y: seq<(K, V)>): Result<bool> {
    if |x| == 0 then Ok(true)
    else if |y| == 0 then Err(DereferenceEnd)
    else if x[0] != y[0] then Ok(false)
    else Lockstep(x[1..], y[1..])
  }

  // ---------------------------------------------------------------------------
  // Iteration visits every entry once, chain by chain

  lemma OrderLength<K, V>(m: Map<K, V>)
    ensures |Order(m)| == |Entries(m)| == EntryCount(m)
  {
    PlacesLength(m.buckets, |m.buckets|);
    OffsetIsLength(m.buckets, |m.buckets|);
  }

  /** The `i`-th node in iteration order sits at offset `i`. */
  lemma OrderAt<K, V>(m: Map<K, V>, i: nat)
    requires i < EntryCount(m)
    ensures |Order(m)| == EntryCount(m)
    ensures Locates(m.buckets, Order(m)[i], i)
  {
    PlacesMatch(m.buckets, |m.buckets|);
  }

  /** The `i`-th iterator position dereferences to the `i`-th entry. */
  lemma DerefAt<K, V>(m: Map<K, V>, i: nat)
    requires i < EntryCount(m)
    ensures |Entries(m)| == EntryCount(m)
    ensures Proper(m, IterAt(m, i)) && Deref(m, IterAt(m, i)) == Ok(Entries(m)[i])
  {
    OrderAt(m, i);
    var p := Order(m)[i];
    EntryAt(m.buckets, p.0, p.1);
  }

  /** `begin()` is the first iterator position; it is `end()` exactly when
      the map has no entries. */
  lemma BeginIsFirst<K, V>(m: Map<K, V>)
    requires Shaped(m)
    ensures Begin(m) == IterAt(m, 0)
    ensures Begin(m) == End(m) <==> EntryCount(m) == 0
  {
    var bs := m.buckets;
    var c := NextNonEmpty(bs, 0);
    NextNonEmptySkips(bs, 0);
    OffsetSkipEmpty(bs, 0, c);
    OrderLength(m);
    if c < |bs| {
      PlaceAt(bs, |bs|, c, 0);
      assert Order(m)[0] == (c, 0);
      assert Begin(m) == Iter(m.id, Some(0), c);
    } else {
      assert Offset(bs, |bs|) == 0;
      assert Begin(m) == End(m);
    }
  }

  /** `++` moves from each iterator position to the next one, and from the
      last to `end()`. */
  lemma IncrementIsNext<K, V>(m: Map<K, V>, i: nat)
    requires Shaped(m) && i < EntryCount(m)
    ensures Proper(m, IterAt(m, i))
    ensures Increment(m, IterAt(m, i)) == Ok(IterAt(m, i + 1))
  {
    var bs := m.buckets;
    OrderAt(m, i);
    var p := Order(m)[i];
    var it := IterAt(m, i);
    assert it == Iter(m.id, Some(p.1), p.0);
    var r := Increment(m, it);
    if p.1 + 1 < |bs[p.0]| {
      PlaceAt(bs, |bs|, p.0, p.1 + 1);
      assert IterAt(m, i + 1) == Iter(m.id, Some(p.1 + 1), p.0);
      assert r.Ok? && r.value == IterAt(m, i + 1);
    } else {
      var c := NextNonEmpty(bs, p.0 + 1);
      NextNonEmptySkips(bs, p.0 + 1);
      OffsetSkipEmpty(bs, p.0 + 1, c);
      assert Offset(bs, c) == i + 1;
      if c < |bs| {
        PlaceAt(bs, |bs|, c, 0);
        assert IterAt(m, i + 1) == Iter(m.id, Some(0), c);
        assert r.Ok? && r.value == IterAt(m, i + 1);
      } else {
        assert IterAt(m, i + 1) == Iter(m.id, None, c);
        assert r.Ok? && r.value == IterAt(m, i + 1);
      }
    }
  }

  /** From `end()` or from a chain head outside chain 0, `--` moves to the
      previous iterator position, and raises at the first one. */
  lemma DecrementIsPrevious<K, V>(m: Map<K, V>, i: nat)
    requires Shaped(m) && i <= EntryCount(m)
    requires IterAt(m, i).node.None? || IterAt(m, i).node.value == 0
    requires IterAt(m, i).index > 0
    ensures Proper(m, IterAt(m, i))
    ensures Decrement(m, IterAt(m, i)) == if i == 0 then Err(DecrementBegin) else Ok(IterAt(m, i - 1))
  {
    var bs := m.buckets;
    var c := IterAt(m, i).index;
    PlacesLength(bs, |bs|);
    if i < |Order(m)| {
      OrderAt(m, i);
    }
    assert Offset(bs, c) == i;
    var p := PrevNonEmpty(bs, c - 1);
    PrevNonEmptySkips(bs, c - 1);
    OffsetSkipEmpty(bs, p + 1, c);
    assert Offset(bs, c) == Offset(bs, p) + |bs[p]|;
    var r := Decrement(m, IterAt(m, i));
    if bs[p] == [] {
      assert i == 0;
      assert r == Err(DecrementBegin);
    } else {
      PlaceAt(bs, |bs|, p, |bs[p]| - 1);
      assert Order(m)[i - 1] == (p, |bs[p]| - 1);
      assert IterAt(m, i - 1) == Iter(m.id, Some(|bs[p]| - 1), p);
      assert r.Ok? && r.value == IterAt(m, i - 1);
    }
  }

  /** From a node that is not a chain head, `--` produces an iterator whose
      node is null but whose index is a chain's: it is no iterator position,
      not even `end()`, and both `*` and `++` raise on it. */
  lemma DecrementInsideChain<K, V>(m: Map<K, V>, i: nat)
    requires Shaped(m) && i < EntryCount(m)
    requires IterAt(m, i).node.Some? && IterAt(m, i).node.value > 0
    ensures Proper(m, IterAt(m, i))
    ensures Decrement(m, IterAt(m, i)).Ok?
    ensures var r := Decrement(m, IterAt(m, i)).value;
      && r != End(m)
      && (forall k: nat :: IterAt(m, k) != r)
      && Deref(m, r).Err? && Increment(m, r).Err?
  {
    OrderAt(m, i);
  }

  // ---------------------------------------------------------------------------
  // Lookup

  lemma ValueOfAbsent<K, V>(m: Map<K, V>, key: K)
    requires Valid(m) && FindNode(m, key).None?
    ensures forall i | 0 <= i < |Entries(m)| :: Entries(m)[i].0 != key
  {
    var bs := m.buckets;
    var b := HashIndex(m, key);
    FirstIndexSpec(bs[b], key);
    forall x, j | 0 <= x < |bs| && 0 <= j < |bs[x]|
      ensures bs[x][j].0 != key
    {
      if x != b {
        assert Placed(m, x);
      }
    }
    ChainsLack(bs, |bs|, key);
  }

  lemma ValueOfPresent<K, V>(m: Map<K, V>, key: K, i: nat)
    requires Valid(m) && FindNode(m, key).Some?
    requires i == Offset(m.buckets, HashIndex(m, key)) + FindNode(m, key).value
    ensures i < |Entries(m)| && Entries(m)[i] == (key, ValueOf(m, key).value)
    ensures NoKeyBefore(Entries(m), key, i)
    ensures Find(m, key) == IterAt(m, i)
  {
    var bs := m.buckets;
    var b := HashIndex(m, key);
    var j := FindNode(m, key).value;
    KeyNotInOtherBuckets(m, key);
    FirstHolderAt(bs, b, j, key);
  }

  /** The first node holding `key`, when no earlier bucket holds it, is the
      first entry with `key` in iteration order. */
  lemma FirstHolderAt<K, V>(bs: seq<seq<(K, V)>>, b: nat, j: nat, key: K)
    requires b < |bs| && FirstIndex(bs[b], key) == Some(j)
    requires forall x, y | 0 <= x < |bs| && x != b && 0 <= y < |bs[x]| :: bs[x][y].0 != key
    ensures var i := Offset(bs, b) + j;
      && i < |Chains(bs, 0, |bs|)| && Chains(bs, 0, |bs|)[i] == bs[b][j]
      && NoKeyBefore(Chains(bs, 0, |bs|), key, i)
      && i < |Places(bs, |bs|)| && Places(bs, |bs|)[i] == (b, j)
  {
    FirstIndexSpec(bs[b], key);
    PlaceAt(bs, |bs|, b, j);
    EntryAt(bs, b, j);
    ChainsFirst(bs, b, j, key);
  }

  /** On a valid map a key can only sit in its own bucket. */
  lemma KeyNotInOtherBuckets<K, V>(m: Map<K, V>, key: K)
    requires Valid(m)
    ensures forall x, y | 0 <= x < |m.buckets| && x != HashIndex(m, key) && 0 <= y < |m.buckets[x]| ::
      m.buckets[x][y].0 != key
  {
    forall x, y | 0 <= x < |m.buckets| && x != HashIndex(m, key) && 0 <= y < |m.buckets[x]|
      ensures m.buckets[x][y].0 != key
    {
      assert Placed(m, x);
    }
  }

  /** No entry among the first `n` of `s` holds `key`. */
  ghost predicate NoKeyBefore<K, V>(s: seq<(K, V)>, key: K, n: nat) {
    n <= |s| && forall i | 0 <= i < n :: s[i].0 != key
  }

  /** A key that no bucket below `hi` holds is nowhere in their chains. */
  lemma {:induction false} ChainsLack<K, V>(bs: seq<seq<(K, V)>>, hi: nat, key: K)
    requires hi <= |bs|
    requires forall x, j | 0 <= x < hi && 0 <= j < |bs[x]| :: bs[x][j].0 != key
    ensures forall i | 0 <= i < |Chains(bs, 0, hi)| :: Chains(bs, 0, hi)[i].0 != key
  {
    if hi > 0 {
      ChainsLack(bs, hi - 1, key);
      var front := Chains(bs, 0, hi - 1);
      var e := Chains(bs, 0, hi);
      assert e == front + bs[hi - 1];
      forall i | |front| <= i < |e|
        ensures e[i].0 != key
      {
        assert e[i] == bs[hi - 1][i - |front|];
      }
    }
  }

  /** When neither the buckets before `b` nor the first `j` entries of bucket
      `b` hold the key, no entry before position `Offset(bs, b) + j` of the
      chains does. */
  lemma ChainsFirst<K, V>(bs: seq<seq<(K, V)>>, b: nat, j: nat, key: K)
    requires b < |bs| && j <= |bs[b]|
    requires forall x, y | 0 <= x < b && 0 <= y < |bs[x]| :: bs[x][y].0 != key
    requires forall y | 0 <= y < j :: bs[b][y].0 != key
    ensures NoKeyBefore(Chains(bs, 0, |bs|), key, Offset(bs, b) + j)
  {
    ChainsOfUpdate(bs, b, bs[b]);
    ChainsLack(bs, b, key);
    OffsetIsLength(bs, b);
    var front := Chains(bs, 0, b);
    var e := Chains(bs, 0, |bs|);
    assert e == front + bs[b] + Chains(bs, b + 1, |bs|);
    forall i | 0 <= i < Offset(bs, b) + j
      ensures e[i].0 != key
    {
      if i < |front| {
        assert e[i] == front[i];
      } else {
        assert e[i] == bs[b][i - |front|];
      }
    }
  }

  /** `valueOf` fails exactly when no entry has the key; otherwise it returns
      the value of the first entry with the key in iteration order, and
      `find` returns the iterator position of that entry. */
  lemma ValueOfSpec<K, V>(m: Map<K, V>, key: K)
    requires Valid(m)
    ensures ValueOf(m, key).Err? <==> forall i | 0 <= i < |Entries(m)| :: Entries(m)[i].0 != key
    ensures ValueOf(m, key).Ok? ==> exists i | 0 <= i < |Entries(m)| ::
      && Entries(m)[i] == (key, ValueOf(m, key).value)
      && NoKeyBefore(Entries(m), key, i)
      && Find(m, key) == IterAt(m, i)
  {
    if FindNode(m, key).None? {
      ValueOfAbsent(m, key);
    } else {
      var i := Offset(m.buckets, HashIndex(m, key)) + FindNode(m, key).value;
      ValueOfPresent(m, key, i);
    }
  }

  /** `remove(key)` raises exactly when no entry has the key. */
  lemma RemoveKeyAbsent<K, V>(m: Map<K, V>, key: K)
    requires Valid(m)
    ensures RemoveKey(m, key).Err? <==> forall i | 0 <= i < |Entries(m)| :: Entries(m)[i].0 != key
  {
    ValueOfSpec(m, key);
  }

  // ---------------------------------------------------------------------------
  // operator[]

  /** `operator[]` adds one entry, with the key and the default value,
      unless the key heads its chain, and keeps the counter equal to the
      number of entries. */
  lemma IndexEntries<K, V>(m: Map<K, V>, key: K, dflt: V)
    requires Valid(m)
    ensures var chain := m.buckets[HashIndex(m, key)];
      multiset(Entries(Index(m, key, dflt).0)) ==
        if chain != [] && chain[0].0 == key then multiset(Entries(m))
        else multiset(Entries(m)) + multiset{(key, dflt)}
  {
    var b := HashIndex(m, key);
    var chain := m.buckets[b];
    if !(chain != [] && chain[0].0 == key) {
      var r := Index(m, key, dflt).0;
      assert r.buckets == m.buckets[b := chain + [(key, dflt)]];
      ChainsAppend(m.buckets, b, (key, dflt));
    }
  }

  lemma ChainsAppend<K, V>(bs: seq<seq<(K, V)>>, b: nat, x: (K, V))
    requires b < |bs|
    ensures multiset(Chains(bs[b := bs[b] + [x]], 0, |bs|)) == multiset(Chains(bs, 0, |bs|)) + multiset{x}
  {
    ChainsOfUpdate(bs, b, bs[b] + [x]);
    var front := Chains(bs, 0, b);
    var back := Chains(bs, b + 1, |bs|);
    assert multiset(front + (bs[b] + [x]) + back) == multiset(front) + multiset(bs[b]) + multiset{x} + multiset(back);
  }

  /** `operator[]` keeps the counter equal to the number of entries. */
  lemma IndexKeepsConsistent<K, V>(m: Map<K, V>, key: K, dflt: V)
    requires Consistent(m)
    ensures Consistent(Index(m, key, dflt).0)
  {
    var chain := m.buckets[HashIndex(m, key)];
    if !(chain != [] && chain[0].0 == key) {
      var r := Index(m, key, dflt).0;
      assert r == Append(m, key, dflt);
      assert r.number == m.number + 1 && EntryCount(r) == EntryCount(m) + 1;
    }
  }

  /** After `operator[]` the key is found: with its old value if `valueOf`
      found it before, with the default value otherwise. */
  lemma IndexThenValueOf<K, V>(m: Map<K, V>, key: K, dflt: V)
    requires Valid(m)
    ensures ValueOf(Index(m, key, dflt).0, key) == if ValueOf(m, key).Ok? then ValueOf(m, key) else Ok(dflt)
  {
    var b := HashIndex(m, key);
    var chain := m.buckets[b];
    var r := Index(m, key, dflt).0;
    assert HashIndex(r, key) == b;
    if !(chain != [] && chain[0].0 == key) {
      assert r.buckets[b] == chain + [(key, dflt)];
      if FirstIndex(chain, key).Some? {
        FirstIndexInFront(chain, [(key, dflt)], key);
      } else {
        FirstIndexPastFront(chain, [(key, dflt)], key);
        assert FirstIndex(r.buckets[b], key) == Some(|chain|);
      }
    }
  }

  /** After `map[key] = value` the key reads `value` when the chain was
      empty, started with the key, or had the key's first node at its tail;
      otherwise the write went to the old tail and the key reads what it
      read before, or the default when it was absent. */
  lemma AssignThenValueOf<K, V>(m: Map<K, V>, key: K, value: V, dflt: V)
    requires Valid(m)
    ensures var chain := m.buckets[HashIndex(m, key)];
      ValueOf(Assign(m, key, value, dflt), key) ==
        if chain == [] || chain[0].0 == key || FindNode(m, key) == Some(|chain| - 1) then Ok(value)
        else if FindNode(m, key).Some? then ValueOf(m, key)
        else Ok(dflt)
  {
    var b := HashIndex(m, key);
    var chain := m.buckets[b];
    var r := Index(m, key, dflt);
    var a := Assign(m, key, value, dflt);
    assert HashIndex(a, key) == b && r.1.0 == b;
    var grown := r.0.buckets[b];
    assert a.buckets[b] == grown[r.1.1 := (grown[r.1.1].0, value)];
    if chain != [] && chain[0].0 != key {
      var n := |chain| - 1;
      var front := chain[n := (chain[n].0, value)];
      assert a.buckets[b] == front + [(key, dflt)];
      FirstIndexSameKeys(chain, front, key);
      if FirstIndex(front, key).Some? {
        FirstIndexInFront(front, [(key, dflt)], key);
      } else {
        FirstIndexPastFront(front, [(key, dflt)], key);
        assert FirstIndex(a.buckets[b], key) == Some(|front|);
      }
    }
  }

  /** After `map[key] = value` every other key reads as before, except the
      key of the old tail when `operator[]` appended to a chain that did
      not start with `key`: that key then reads `value`. */
  lemma AssignThenOtherKey<K, V>(m: Map<K, V>, key: K, value: V, dflt: V, x: K)
    requires Valid(m) && x != key
    ensures var chain := m.buckets[HashIndex(m, key)];
      ValueOf(Assign(m, key, value, dflt), x) ==
        if chain != [] && chain[0].0 != key && HashIndex(m, x) == HashIndex(m, key)
          && FindNode(m, x) == Some(|chain| - 1)
        then Ok(value)
        else ValueOf(m, x)
  {
    var b := HashIndex(m, key);
    var chain := m.buckets[b];
    var r := Index(m, key, dflt);
    var a := Assign(m, key, value, dflt);
    assert HashIndex(a, x) == HashIndex(m, x) && r.1.0 == b;
    var grown := r.0.buckets[b];
    assert a.buckets == r.0.buckets[b := grown[r.1.1 := (grown[r.1.1].0, value)]];
    if HashIndex(m, x) != b {
      assert a.buckets[HashIndex(m, x)] == m.buckets[HashIndex(m, x)];
    } else if chain == [] {
      assert a.buckets[b] == [(key, value)];
      assert FindNode(a, x).None?;
    } else if chain[0].0 == key {
      var c := chain[0 := (key, value)];
      assert a.buckets[b] == c;
      FirstIndexSameKeys(chain, c, x);
      assert FindNode(a, x) == FindNode(m, x);
    } else {
      var n := |chain| - 1;
      var front := chain[n := (chain[n].0, value)];
      assert a.buckets[b] == front + [(key, dflt)];
      FirstIndexSameKeys(chain, front, x);
      if FirstIndex(front, x).Some? {
        FirstIndexInFront(front, [(key, dflt)], x);
        assert FindNode(a, x) == FindNode(m, x);
      } else {
        FirstIndexPastFront(front, [(key, dflt)], x);
        assert FirstIndex([(key, dflt)], x).None?;
        assert FindNode(a, x).None? && FindNode(m, x).None?;
      }
    }
  }

  /** `operator[]` checks only the chain's head: a key that sits further
      down its chain gets a second node. */
  lemma IndexDuplicates<K, V>(m: Map<K, V>, key: K, dflt: V)
    requires Valid(m)
    requires var chain := m.buckets[HashIndex(m, key)];
      chain != [] && chain[0].0 != key && FindNode(m, key).Some?
    ensures var c := Index(m, key, dflt).0.buckets[HashIndex(m, key)];
      exists j1, j2 | 0 <= j1 < j2 < |c| :: c[j1].0 == key && c[j2].0 == key
  {
    var chain := m.buckets[HashIndex(m, key)];
    var c := Index(m, key, dflt).0.buckets[HashIndex(m, key)];
    var j1 := FindNode(m, key).value;
    assert c[j1].0 == key && c[|chain|].0 == key;
  }

  /** The reference `operator[]` returns is to a node with the requested key
      exactly when the chain was empty, starts with the key, or ends with
      it: otherwise it is the old tail, a different key's value. */
  lemma IndexSlot<K, V>(m: Map<K, V>, key: K, dflt: V)
    requires Valid(m)
    ensures var r := Index(m, key, dflt);
      var chain := m.buckets[HashIndex(m, key)];
      r.0.buckets[r.1.0][r.1.1].0 == key <==> chain == [] || chain[0].0 == key || chain[|chain| - 1].0 == key
  {
  }

  // ---------------------------------------------------------------------------
  // remove

  lemma RemoveSucceeds<K, V>(m: Map<K, V>, it: Iter)
    requires Valid(m) && it.owner == m.id && Points(m, it)
    ensures Remove(m, it).Ok?
    ensures Remove(m, it).value.buckets == m.buckets[it.index := m.buckets[it.index][it.node.value + 1..]]
    ensures Remove(m, it).value.number == m.number - 1
    ensures Valid(Remove(m, it).value) && EntryCount(Remove(m, it).value) == EntryCount(m) - it.node.value - 1
  {
    assert it.node != End(m).node;
  }

  /** After `remove(key)`, `find(key)` is `end()` exactly when no node
      further down the key's chain, past the one removed, holds the key. */
  lemma RemoveKeyThenFind<K, V>(m: Map<K, V>, key: K)
    requires Valid(m)
    ensures RemoveKey(m, key).Ok? ==>
      var rest := m.buckets[HashIndex(m, key)][FindNode(m, key).value + 1..];
      var r := RemoveKey(m, key).value;
      && r.buckets[HashIndex(r, key)] == rest
      && (Find(r, key) == End(r) <==> FirstIndex(rest, key).None?)
  {
  }

  /** `remove(it)` takes out the node and every node before it in its
      chain. */
  lemma RemoveEntries<K, V>(m: Map<K, V>, it: Iter)
    requires Valid(m) && it.owner == m.id && Points(m, it)
    ensures Remove(m, it).Ok?
    ensures CutOut(Entries(m), Entries(Remove(m, it).value), Offset(m.buckets, it.index), it.node.value + 1)
  {
    RemoveSucceeds(m, it);
    EntriesAfterCut(m, Remove(m, it).value, it.index, it.node.value);
  }

  /** `after` is `before` with the `n` elements from position `o` taken out. */
  ghost predicate CutOut<T>(before: seq<T>, after: seq<T>, o: nat, n: nat) {
    o + n <= |before| && after == before[..o] + before[o + n..]
  }

  /** Cutting the first `j + 1` entries of bucket `b` cuts them out of the
      iteration order at the bucket's offset. */
  lemma EntriesAfterCut<K, V>(m: Map<K, V>, r: Map<K, V>, b: nat, j: nat)
    requires b < |m.buckets| && j < |m.buckets[b]|
    requires r.buckets == m.buckets[b := m.buckets[b][j + 1..]]
    ensures CutOut(Entries(m), Entries(r), Offset(m.buckets, b), j + 1)
  {
    ChainsCut(m.buckets, b, j);
  }

  lemma ChainsCut<K, V>(bs: seq<seq<(K, V)>>, b: nat, j: nat)
    requires b < |bs| && j < |bs[b]|
    ensures CutOut(Chains(bs, 0, |bs|), Chains(bs[b := bs[b][j + 1..]], 0, |bs|), Offset(bs, b), j + 1)
  {
    ChainsOfUpdate(bs, b, bs[b][j + 1..]);
    OffsetIsLength(bs, b);
    CutMiddle(Chains(bs, 0, b), bs[b], Chains(bs, b + 1, |bs|), j);
  }

  /** `remove(it)` drops the counter by one but the number of entries by
      the node's position in its chain plus one: on a consistent map the
      result is consistent exactly when the node was a chain head. */
  lemma RemoveConsistency<K, V>(m: Map<K, V>, it: Iter)
    requires Consistent(m) && it.owner == m.id && Points(m, it)
    ensures Remove(m, it).Ok?
    ensures Consistent(Remove(m, it).value) <==> it.node.value == 0
  {
    RemoveSucceeds(m, it);
    var r := Remove(m, it).value;
    assert Valid(r) && r.number == m.number - 1 && EntryCount(r) == EntryCount(m) - it.node.value - 1;
  }

  /** Cutting the first `j + 1` elements out of the middle part of a
      three-part sequence. */
  lemma CutMiddle<T>(front: seq<T>, mid: seq<T>, back: seq<T>, j: nat)
    requires j < |mid|
    ensures CutOut(front + mid + back, front + mid[j + 1..] + back, |front|, j + 1)
  {
    var e := front + mid + back;
    assert e[..|front|] == front;
    assert e[|front| + j + 1..] == mid[j + 1..] + back by {
      assert forall x | |front| + j + 1 <= x < |front| + |mid| :: e[x] == mid[x - |front|];
      assert forall x | |front| + |mid| <= x < |e| :: e[x] == back[x - |front| - |mid|];
    }
    assert front + mid[j + 1..] + back == front + (mid[j + 1..] + back);
  }

  // ---------------------------------------------------------------------------
  // operator==

  /** The lockstep walk answers true exactly when the first sequence is a
      prefix of the second, and dereferences `end()` exactly when the second
      is a proper prefix of the first. */
  lemma {:induction false} LockstepSpec<K, V>(x: seq<(K, V)>, y: seq<(K, V)>)
    ensures Lockstep(x, y) == Ok(true) <==> |x| <= |y| && y[..|x|] == x
    ensures Lockstep(x, y).Err? <==> |y| < |x| && x[..|y|] == y
    ensures Lockstep(x, y).Err? ==> Lockstep(x, y).error == DereferenceEnd
  {
    if |x| > 0 && |y| > 0 && x[0] == y[0] {
      LockstepSpec(x[1..], y[1..]);
      if |x| <= |y| {
        assert y[..|x|] == [y[0]] + y[1..][..|x| - 1];
        assert x == [x[0]] + x[1..];
      } else {
        assert x[..|y|] == [x[0]] + x[1..][..|y| - 1];
        assert y == [y[0]] + y[1..];
      }
    } else if |x| > 0 && |y| > 0 {
      if |x| <= |y| {
        assert y[..|x|][0] == y[0];
      } else {
        assert x[..|y|][0] == x[0];
      }
    }
  }

  /** What `a == b` returns: false on different counters, otherwise the
      lockstep walk over the two iteration sequences. */
  function EqualsSpec<K(==), V(==)>(a: Map<K, V>, b: Map<K, V>): Result<bool> {
    if a.number != b.number then Ok(false) else Lockstep(Entries(a), Entries(b))
  }

  /** On consistent maps `a == b` never raises and answers whether the two
      iteration sequences are equal. */
  lemma EqualsOfConsistent<K, V>(a: Map<K, V>, b: Map<K, V>)
    requires Consistent(a) && Consistent(b)
    ensures EqualsSpec(a, b) == Ok(Entries(a) == Entries(b))
  {
    var x, y := Entries(a), Entries(b);
    OrderLength(a);
    OrderLength(b);
    if a.number != b.number {
      assert x != y;
    } else {
      LockstepSpec(x, y);
      assert y[..|x|] == y;
      var r := Lockstep(x, y);
      assert r.Ok?;
      assert r.value <==> x == y;
    }
  }

  /** `operator==`: different counters answer false; otherwise both maps
      are walked with iterators in step until the first reaches `end()`,
      comparing entries. */
  method Equals<K(==), V(==)>(a: Map<K, V>, b: Map<K, V>) returns (r: Result<bool>)
    requires Shaped(a) && Shaped(b)
    ensures r == EqualsSpec(a, b)
  {
    if a.number != b.number {
      return Ok(false);
    }
    ghost var x, y := Entries(a), Entries(b);
    OrderLength(a);
    OrderLength(b);
    BeginIsFirst(a);
    BeginIsFirst(b);
    var it, it2 := Begin(a), Begin(b);
    ghost var n := 0;
    while it != End(a)
      invariant n <= |x| == EntryCount(a) && n <= |y| == EntryCount(b)
      invariant it == IterAt(a, n) && it2 == IterAt(b, n)
      invariant it == End(a) <==> n == |x|
      invariant Lockstep(x, y) == Lockstep(x[n..], y[n..])
      decreases |x| - n
    {
      WalkStep(a, n);
      LockstepAt(x, y, n);
      var u := Deref(a, it);
      if n < |y| {
        WalkStep(b, n);
      } else {
        WalkEnd(b, n);
      }
      var v := Deref(b, it2);
      if v.Err? {
        return Err(DereferenceEnd);
      }
      if u.value != v.value {
        return Ok(false);
      }
      it, it2 := Increment(a, it).value, Increment(b, it2).value;
      n := n + 1;
      if n < |x| {
        WalkStep(a, n);
      } else {
        WalkEnd(a, n);
      }
    }
    LockstepAt(x, y, n);
    return Ok(true);
  }

  /** At an iterator position before `end()`: the entry it dereferences to,
      and where `++` takes it. */
  lemma WalkStep<K, V>(m: Map<K, V>, n: nat)
    requires Shaped(m) && n < EntryCount(m)
    ensures |Entries(m)| == EntryCount(m)
    ensures Proper(m, IterAt(m, n)) && IterAt(m, n) != End(m)
    ensures Deref(m, IterAt(m, n)) == Ok(Entries(m)[n])
    ensures Increment(m, IterAt(m, n)) == Ok(IterAt(m, n + 1))
  {
    DerefAt(m, n);
    IncrementIsNext(m, n);
  }

  /** The position after the last is `end()`, which does not dereference. */
  lemma WalkEnd<K, V>(m: Map<K, V>, n: nat)
    requires n == EntryCount(m)
    ensures IterAt(m, n) == End(m) && Proper(m, IterAt(m, n))
    ensures Deref(m, IterAt(m, n)) == Err(DereferenceEnd)
  {
    OrderLength(m);
  }

  /** One step of the lockstep walk from position `n`. */
  lemma LockstepAt<K, V>(x: seq<(K, V)>, y: seq<(K, V)>, n: nat)
    requires n <= |x| && n <= |y|
    ensures Lockstep(x[n..], y[n..]) ==
      if n == |x| then Ok(true)
      else if n == |y| then Err(DereferenceEnd)
      else if x[n] != y[n] then Ok(false)
      else Lockstep(x[n + 1..], y[n + 1..])
  {
    if n < |x| && n < |y| {
      assert x[n..][0] == x[n] && y[n..][0] == y[n];
      assert x[n..][1..] == x[n + 1..] && y[n..][1..] == y[n + 1..];
    }
  }

  lemma IsEmptyIffNoEntries<K, V>(m: Map<K, V>)
    requires Consistent(m)
    ensures Size(m) == |Entries(m)|
    ensures IsEmpty(m) <==> Begin(m) == End(m)
  {
    BeginIsFirst(m);
    OrderLength(m);
  }

  /** On every valid map `getSize` is at least the number of entries and
      equals it exactly on consistent maps; `isEmpty` implies that there
      are no entries, though a map without entries need not be empty. */
  lemma SizeBoundsEntries<K, V>(m: Map<K, V>)
    requires Valid(m)
    ensures |Entries(m)| <= Size(m)
    ensures Size(m) == |Entries(m)| <==> Consistent(m)
    ensures IsEmpty(m) ==> Entries(m) == []
  {
    OrderLength(m);
  }

  // ---------------------------------------------------------------------------
  // The defects on a concrete map whose keys all hash to bucket 0

  /** A hash that sends every key to bucket 0. */
  function ZeroHash(k: int): nat {
    0
  }

  /** Key 1 assigned 10. */
  function OneKey(): (m: Map<int, int>)
    ensures Valid(m)
  {
    Assign(Empty(0, ZeroHash), 1, 10, 0)
  }

  /** Keys 1 then 2 in the same chain, assigned 10 and 20. */
  function Collided(): (m: Map<int, int>)
    ensures Valid(m)
  {
    Assign(OneKey(), 2, 20, 0)
  }

  lemma OneKeyShape()
    ensures forall k: int :: HashIndex(OneKey(), k) == 0
    ensures OneKey().buckets[0] == [(1, 10)]
    ensures OneKey().number == 1 && EntryCount(OneKey()) == 1
  {
    var m0 := Empty(0, ZeroHash);
    assert HashIndex(m0, 1) == 0;
    assert m0.buckets[0] == [];
    var r := Index(m0, 1, 0);
    assert r.1 == (0, 0) && r.0.buckets[0] == [(1, 0)];
  }

  /** Assigning 20 to key 2 wrote the value into key 1's node and left the
      new node for key 2 with the default. */
  lemma CollidedShape()
    ensures forall k: int :: HashIndex(Collided(), k) == 0
    ensures Collided().buckets[0] == [(1, 20), (2, 0)]
    ensures Collided().number == 2 && EntryCount(Collided()) == 2
  {
    SecondIndex();
    var r := Index(OneKey(), 2, 0);
    var chain := r.0.buckets[0];
    assert Collided().buckets == r.0.buckets[0 := chain[0 := (1, 20)]];
  }

  /** `operator[]` for key 2 appends its node and returns key 1's slot. */
  lemma SecondIndex()
    ensures Index(OneKey(), 2, 0).1 == (0, 0)
    ensures Index(OneKey(), 2, 0).0.buckets[0] == [(1, 10), (2, 0)]
    ensures Index(OneKey(), 2, 0).0.number == 2 && EntryCount(Index(OneKey(), 2, 0).0) == 2
  {
    OneKeyShape();
    var chain := OneKey().buckets[HashIndex(OneKey(), 2)];
    assert chain == [(1, 10)] && chain[0].0 != 2;
    assert chain + [(2, 0)] == [(1, 10), (2, 0)];
  }

  /** `(*this)[k] = v` on a key that collides with a different chain head
      assigns through the reference to the old tail: key 1 reads 20 and key
      2 reads the default. */
  lemma AssignWritesPreviousTail()
    ensures ValueOf(Collided(), 1) == Ok(20)
    ensures ValueOf(Collided(), 2) == Ok(0)
  {
    CollidedShape();
    var c := Collided().buckets[0];
    assert FirstIndex(c, 1) == Some(0);
    assert FirstIndex(c[1..], 2) == Some(0);
    assert FirstIndex(c, 2) == Some(1);
  }

  /** `operator[]` on a key that is present but not at the head of its chain
      appends a second node with that key. */
  lemma IndexAppendsDuplicate()
    ensures Index(Collided(), 2, 0).0.buckets[0] == [(1, 20), (2, 0), (2, 0)]
    ensures Index(Collided(), 2, 0).0.number == 3
    ensures Index(Collided(), 2, 0).1 == (0, 1)
  {
    CollidedShape();
  }

  /** `remove(key)` removes only the first node with the key: on the chain
      `operator[]` left with two nodes for key 2, `find(2)` still reaches
      one afterwards. */
  lemma RemoveKeyLeavesDuplicate()
    ensures RemoveKey(Index(Collided(), 2, 0).0, 2).Ok?
    ensures var r := RemoveKey(Index(Collided(), 2, 0).0, 2).value;
      && r.buckets[0] == [(2, 0)]
      && Find(r, 2) != End(r)
      && ValueOf(r, 2) == Ok(0)
  {
    IndexAppendsDuplicate();
    CollidedShape();
    var m := Index(Collided(), 2, 0).0;
    var c := m.buckets[0];
    assert HashIndex(m, 2) == 0;
    assert FirstIndex(c[1..], 2) == Some(0);
    assert FindNode(m, 2) == Some(1);
    RemoveKeyThenFind(m, 2);
    var r := RemoveKey(m, 2).value;
    assert c[2..] == [(2, 0)];
    assert FirstIndex(r.buckets[0], 2) == Some(0);
  }

  /** Removing the second node of a chain makes the bucket start after it, so
      key 1 is lost while the counter only drops by one. */
  lemma RemoveDropsEarlierEntries()
    ensures Remove(Collided(), Find(Collided(), 2)).Ok?
    ensures var r := Remove(Collided(), Find(Collided(), 2)).value;
      && ValueOf(r, 1) == Err(NotFound)
      && r.number == 1 && EntryCount(r) == 0
      && !Consistent(r)
  {
    CollidedShape();
    var m := Collided();
    var c := m.buckets[0];
    assert FirstIndex(c[1..], 2) == Some(0);
    assert FindNode(m, 2) == Some(1) && HashIndex(m, 2) == 0;
    var it := Find(m, 2);
    assert it == Iter(0, Some(1), 0) && it != End(m);
    var r := Remove(m, it);
    assert r.Ok? && r.value.buckets[0] == [];
    assert HashIndex(r.value, 1) == 0;
  }

  /** An iterator is a position in a chain: one held across the removal of
      another node is read at that position afterwards. Removing key 1's
      node shifts key 2's node to the head, and the iterator `find(2)`
      returned, at position 1, no longer names a node, although key 2's
      node is still in the map. */
  lemma RemoveShiftsHeldIterator()
    ensures Find(Collided(), 2) == Iter(0, Some(1), 0)
    ensures Deref(Collided(), Find(Collided(), 2)) == Ok((2, 0))
    ensures Remove(Collided(), Find(Collided(), 1)).Ok?
    ensures var r := Remove(Collided(), Find(Collided(), 1)).value;
      && r.buckets[0] == [(2, 0)]
      && Find(r, 2) == Iter(0, Some(0), 0)
      && !Proper(r, Find(Collided(), 2))
  {
    CollidedShape();
    var m := Collided();
    var c := m.buckets[0];
    assert FirstIndex(c, 1) == Some(0);
    assert FirstIndex(c[1..], 2) == Some(0);
    assert FindNode(m, 2) == Some(1);
    assert c[1..] == [(2, 0)];
    var r := Remove(m, Find(m, 1)).value;
    assert HashIndex(r, 2) == 0;
  }
}

=== FILE: tree_map.dfy ===
/** An ordered map kept as an unbalanced binary search tree (`aisdi::TreeMap`).

    A node is named by the path that leads to it from the root, so the
    parent link of the source is implicit: the parent of the node at path
    `p` is the node at `p` without its last step. Iterators are paths or
    the end iterator, and the parent walks of `treeSucessor` and
    `treePredecessor` become climbs from the end of a path. */
module TreeMap {
  import opened Common

  datatype Tree<V> = Leaf | Node(left: Tree<V>, key: int, value: V, right: Tree<V>)

  /** One step from a node to a child. */
  datatype Dir = Left | Right

  /** The steps from the root to a node. */
  type Path = seq<Dir>

  /** `At(p)` points at the node reached by `p`; `End` is the null node. */
  datatype Iter = At(path: Path) | End

  // ---------------------------------------------------------------------------
  // Structure

  /** The subtree rooted at the end of `p` (a `Leaf` once `p` leaves the tree). */
  function Subtree<V>(t: Tree<V>, p: Path): Tree<V>
    decreases |p|
  {
    if |p| == 0 then t
    else match t
      case Leaf => Leaf
      case Node(l, _, _, r) => Subtree(if p[0] == Left then l else r, p[1..])
  }

  /** `p` leads to a node of `t`. */
  predicate ValidPath<V>(t: Tree<V>, p: Path) {
    Subtree(t, p).Node?
  }

  function EntryAt<V>(t: Tree<V>, p: Path): (int, V)
    requires ValidPath(t, p)
  {
    (Subtree(t, p).key, Subtree(t, p).value)
  }

  /** `t` with the subtree at the end of `p` replaced by `s`. */
  function ReplaceAt<V>(t: Tree<V>, p: Path, s: Tree<V>): Tree<V>
    decreases |p|
  {
    if |p| == 0 then s
    else match t
      case Leaf => Leaf
      case Node(l, k, v, r) =>
        if p[0] == Left then Node(ReplaceAt(l, p[1..], s), k, v, r)
        else Node(l, k, v, ReplaceAt(r, p[1..], s))
  }

  function Keys<V>(t: Tree<V>): set<int> {
    match t
    case Leaf => {}
    case Node(l, k, _, r) => Keys(l) + {k} + Keys(r)
  }

  /** The search-tree property: keys on the left are smaller than the node's
      key, keys on the right are not (insert sends equal keys right). */
  predicate IsBst<V>(t: Tree<V>) {
    match t
    case Leaf => true
    case Node(l, k, _, r) =>
      && IsBst(l) && IsBst(r)
      && (forall x | x in Keys(l) :: x < k)
      && (forall x | x in Keys(r) :: k <= x)
  }

  /** The entries in in-order (left subtree, node, right subtree). */
  function InOrder<V>(t: Tree<V>): seq<(int, V)> {
    match t
    case Leaf => []
    case Node(l, k, v, r) => InOrder(l) + [(k, v)] + InOrder(r)
  }

  function Prefixed(d: Dir, ps: seq<Path>): seq<Path> {
    seq(|ps|, i requires 0 <= i < |ps| => [d] + ps[i])
  }

  /** The nodes in in-order: the reference order that iteration must follow. */
  function InOrderPaths<V>(t: Tree<V>): seq<Path> {
    match t
    case Leaf => []
    case Node(l, _, _, r) => Prefixed(Left, InOrderPaths(l)) + [[]] + Prefixed(Right, InOrderPaths(r))
  }

  /** Position `i` of the in-order node sequence, one level down. */
  lemma InOrderPathsAt<V>(t: Tree<V>, i: nat)
    requires t.Node? && i < |InOrderPaths(t)|
    ensures |InOrderPaths(t)| == |InOrderPaths(t.left)| + 1 + |InOrderPaths(t.right)|
    ensures var nl := |InOrderPaths(t.left)|;
      InOrderPaths(t)[i] ==
        if i < nl then [Left] + InOrderPaths(t.left)[i]
        else if i == nl then []
        else [Right] + InOrderPaths(t.right)[i - nl - 1]
  {
  }

  lemma SubtreeCons<V>(t: Tree<V>, d: Dir, q: Path)
    requires t.Node?
    ensures Subtree(t, [d] + q) == Subtree(if d == Left then t.left else t.right, q)
  {
    assert ([d] + q)[1..] == q;
  }

  lemma {:induction false} InOrderPathsMatch<V>(t: Tree<V>)
    ensures |InOrderPaths(t)| == |InOrder(t)|
    ensures forall i | 0 <= i < |InOrderPaths(t)| ::
      ValidPath(t, InOrderPaths(t)[i]) && EntryAt(t, InOrderPaths(t)[i]) == InOrder(t)[i]
  {
    match t
    case Leaf =>
    case Node(l, k, v, r) =>
      InOrderPathsMatch(l);
      InOrderPathsMatch(r);
      var nl := |InOrderPaths(l)|;
      forall i | 0 <= i < |InOrderPaths(t)|
        ensures ValidPath(t, InOrderPaths(t)[i]) && EntryAt(t, InOrderPaths(t)[i]) == InOrder(t)[i]
      {
        if i < nl {
          SubtreeCons(t, Left, InOrderPaths(l)[i]);
        } else if i > nl {
          SubtreeCons(t, Right, InOrderPaths(r)[i - nl - 1]);
        }
      }
  }

  /** There are as many nodes in in-order as entries. */
  lemma {:induction false} InOrderPathsCount<V>(t: Tree<V>)
    ensures |InOrderPaths(t)| == Count(t)
  {
    match t
    case Leaf =>
    case Node(l, _, _, r) =>
      InOrderPathsCount(l);
      InOrderPathsCount(r);
  }

  /** Every node occurs in the in-order sequence, at position `i`. */
  function Rank<V>(t: Tree<V>, p: Path): (i: nat)
    requires ValidPath(t, p)
    ensures i < |InOrderPaths(t)| && InOrderPaths(t)[i] == p
    ensures i < Count(t)
    decreases |p|
  {
    InOrderPathsCount(t);
    if |p| == 0 then |InOrderPaths(t.left)|
    else if p[0] == Left then
      assert p == [Left] + p[1..];
      Rank(t.left, p[1..])
    else
      assert p == [Right] + p[1..];
      |InOrderPaths(t.left)| + 1 + Rank(t.right, p[1..])
  }

  /** No node occurs twice in the in-order sequence. */
  lemma {:induction false} InOrderPathsDistinct<V>(t: Tree<V>)
    ensures forall i, j | 0 <= i < j < |InOrderPaths(t)| :: InOrderPaths(t)[i] != InOrderPaths(t)[j]
  {
    match t
    case Leaf =>
    case Node(l, _, _, r) =>
      InOrderPathsDistinct(l);
      InOrderPathsDistinct(r);
      var ps := InOrderPaths(t);
      var nl := |InOrderPaths(l)|;
      forall i, j | 0 <= i < j < |ps| ensures ps[i] != ps[j] {
        if i < nl && j < nl {
          assert ps[i][1..] == InOrderPaths(l)[i];
          assert ps[j][1..] == InOrderPaths(l)[j];
        } else if i > nl && j > nl {
          assert ps[i][1..] == InOrderPaths(r)[i - nl - 1];
          assert ps[j][1..] == InOrderPaths(r)[j - nl - 1];
        } else if i < nl && j == nl {
          assert |ps[i]| > 0;
        } else if i == nl {
          assert |ps[j]| > 0;
        } else {
          assert ps[i][0] == Left && ps[j][0] == Right;
        }
      }
  }

  /** `count`: the number of nodes, computed recursively and not cached. */
  function Count<V>(t: Tree<V>): (n: nat)
    ensures n == |InOrder(t)|
  {
    match t
    case Leaf => 0
    case Node(l, _, _, r) => Count(l) + Count(r) + 1
  }

  // ---------------------------------------------------------------------------
  // Extremes and the parent walks

  /** The path `treeMinimum` follows: left children down to a node without one. */
  function Leftmost<V>(t: Tree<V>): (p: Path)
    requires t.Node?
    ensures ValidPath(t, p) && Subtree(t, p).left == Leaf
  {
    if t.left == Leaf then []
    else
      var q := Leftmost(t.left);
      SubtreeCons(t, Left, q);
      [Left] + q
  }

  /** The path `treeMaximum` follows: right children down to a node without one. */
  function Rightmost<V>(t: Tree<V>): (p: Path)
    requires t.Node?
    ensures ValidPath(t, p) && Subtree(t, p).right == Leaf
  {
    if t.right == Leaf then []
    else
      var q := Rightmost(t.right);
      SubtreeCons(t, Right, q);
      [Right] + q
  }

  /** The leftmost node comes first in in-order. */
  lemma {:induction false} LeftmostIsFirst<V>(t: Tree<V>)
    requires t.Node?
    ensures Leftmost(t) == InOrderPaths(t)[0]
  {
    InOrderPathsAt(t, 0);
    if t.left != Leaf {
      LeftmostIsFirst(t.left);
    }
  }

  /** The rightmost node comes last in in-order. */
  lemma {:induction false} RightmostIsLast<V>(t: Tree<V>)
    requires t.Node?
    ensures Rightmost(t) == InOrderPaths(t)[|InOrderPaths(t)| - 1]
  {
    InOrderPathsAt(t, |InOrderPaths(t)| - 1);
    if t.right != Leaf {
      RightmostIsLast(t.right);
    }
  }

  /** The loop of `treeSucessor`: climb while the current node is its
      parent's right child; the answer is the parent reached from a left
      child, or null past the root. */
  function ClimbFromRight(p: Path): Iter
    decreases |p|
  {
    if |p| == 0 then End
    else if p[|p| - 1] == Right then ClimbFromRight(p[..|p| - 1])
    else At(p[..|p| - 1])
  }

  /** The loop of `treePredecessor`: the mirror image of `ClimbFromRight`. */
  function ClimbFromLeft(p: Path): Iter
    decreases |p|
  {
    if |p| == 0 then End
    else if p[|p| - 1] == Left then ClimbFromLeft(p[..|p| - 1])
    else At(p[..|p| - 1])
  }

  /** The climb runs off the top exactly when every step below is a right
      step; otherwise it stops at the deepest ancestor entered by a left
      step, with only right steps below that. */
  lemma {:induction false} ClimbFromRightSpec(p: Path)
    ensures ClimbFromRight(p).End? <==> forall i | 0 <= i < |p| :: p[i] == Right
    ensures ClimbFromRight(p).At? ==> var a := ClimbFromRight(p).path;
      |a| < |p| && p[..|a|] == a && p[|a|] == Left && forall i | |a| < i < |p| :: p[i] == Right
    decreases |p|
  {
    if |p| > 0 && p[|p| - 1] == Right {
      var q := p[..|p| - 1];
      ClimbFromRightSpec(q);
      var r := ClimbFromRight(q);
      assert r.At? ==> p[..|r.path|] == q[..|r.path|];
    }
  }

  /** The mirror image of `ClimbFromRightSpec`. */
  lemma {:induction false} ClimbFromLeftSpec(p: Path)
    ensures ClimbFromLeft(p).End? <==> forall i | 0 <= i < |p| :: p[i] == Left
    ensures ClimbFromLeft(p).At? ==> var a := ClimbFromLeft(p).path;
      |a| < |p| && p[..|a|] == a && p[|a|] == Right && forall i | |a| < i < |p| :: p[i] == Left
    decreases |p|
  {
    if |p| > 0 && p[|p| - 1] == Left {
      var q := p[..|p| - 1];
      ClimbFromLeftSpec(q);
      var r := ClimbFromLeft(q);
      assert r.At? ==> p[..|r.path|] == q[..|r.path|];
    }
  }

  /** `treeSucessor`: the minimum of the right subtree if there is one,
      otherwise the parent walk. */
  function Successor<V>(t: Tree<V>, p: Path): Iter
    requires ValidPath(t, p)
  {
    var n := Subtree(t, p);
    if n.right != Leaf then At(p + [Right] + Leftmost(n.right)) else ClimbFromRight(p)
  }

  /** `treePredecessor`: the maximum of the left subtree if there is one,
      otherwise the parent walk. */
  function Predecessor<V>(t: Tree<V>, p: Path): Iter
    requires ValidPath(t, p)
  {
    var n := Subtree(t, p);
    if n.left != Leaf then At(p + [Left] + Rightmost(n.left)) else ClimbFromLeft(p)
  }

  /** Prepending a step to the path shifts the climb's answer by that step;
      a climb that ran off the top now stops at the new root when it comes
      up from the opposite side. */
  lemma {:induction false} ClimbFromRightCons(d: Dir, q: Path)
    ensures ClimbFromRight([d] + q) ==
      match ClimbFromRight(q)
      case End => if d == Right then End else At([])
      case At(x) => At([d] + x)
    decreases |q|
  {
    var p := [d] + q;
    if |q| > 0 {
      assert p[..|p| - 1] == [d] + q[..|q| - 1];
      ClimbFromRightCons(d, q[..|q| - 1]);
    } else {
      assert p[..0] == [];
    }
  }

  lemma {:induction false} ClimbFromLeftCons(d: Dir, q: Path)
    ensures ClimbFromLeft([d] + q) ==
      match ClimbFromLeft(q)
      case End => if d == Left then End else At([])
      case At(x) => At([d] + x)
    decreases |q|
  {
    var p := [d] + q;
    if |q| > 0 {
      assert p[..|p| - 1] == [d] + q[..|q| - 1];
      ClimbFromLeftCons(d, q[..|q| - 1]);
    } else {
      assert p[..0] == [];
    }
  }

  lemma SuccessorUnder<V>(t: Tree<V>, d: Dir, q: Path)
    requires t.Node? && ValidPath(if d == Left then t.left else t.right, q)
    ensures ValidPath(t, [d] + q)
    ensures Successor(t, [d] + q) ==
      match Successor(if d == Left then t.left else t.right, q)
      case End => if d == Right then End else At([])
      case At(x) => At([d] + x)
  {
    var c := if d == Left then t.left else t.right;
    SubtreeCons(t, d, q);
    var n := Subtree(c, q);
    assert Subtree(t, [d] + q) == n;
    if n.right != Leaf {
      var m := Leftmost(n.right);
      assert Successor(c, q) == At(q + [Right] + m);
      assert Successor(t, [d] + q) == At([d] + q + [Right] + m);
      assert [d] + q + [Right] + m == [d] + (q + [Right] + m);
    } else {
      assert Successor(c, q) == ClimbFromRight(q);
      assert Successor(t, [d] + q) == ClimbFromRight([d] + q);
      ClimbFromRightCons(d, q);
    }
  }

  lemma PredecessorUnder<V>(t: Tree<V>, d: Dir, q: Path)
    requires t.Node? && ValidPath(if d == Left then t.left else t.right, q)
    ensures ValidPath(t, [d] + q)
    ensures Predecessor(t, [d] + q) ==
      match Predecessor(if d == Left then t.left else t.right, q)
      case End => if d == Left then End else At([])
      case At(x) => At([d] + x)
  {
    var c := if d == Left then t.left else t.right;
    SubtreeCons(t, d, q);
    var n := Subtree(c, q);
    assert Subtree(t, [d] + q) == n;
    if n.left != Leaf {
      var m := Rightmost(n.left);
      assert Predecessor(c, q) == At(q + [Left] + m);
      assert Predecessor(t, [d] + q) == At([d] + q + [Left] + m);
      assert [d] + q + [Left] + m == [d] + (q + [Left] + m);
    } else {
      assert Predecessor(c, q) == ClimbFromLeft(q);
      assert Predecessor(t, [d] + q) == ClimbFromLeft([d] + q);
      ClimbFromLeftCons(d, q);
    }
  }

  /** The parent-walk successor of the `i`-th node in in-order is the
      `i+1`-th node, and null after the last one. */
  lemma {:induction false} SuccessorIsNext<V>(t: Tree<V>, i: nat)
    requires i < |InOrderPaths(t)|
    ensures ValidPath(t, InOrderPaths(t)[i])
    ensures Successor(t, InOrderPaths(t)[i]) ==
      if i + 1 < |InOrderPaths(t)| then At(InOrderPaths(t)[i + 1]) else End
  {
    var nl := |InOrderPaths(t.left)|;
    InOrderPathsAt(t, i);
    if i < nl {
      SuccessorIsNext(t.left, i);
      SuccessorInLeft(t, i);
    } else if i > nl {
      SuccessorIsNext(t.right, i - nl - 1);
      SuccessorInRight(t, i);
    } else {
      SuccessorOfRoot(t);
    }
  }

  lemma SuccessorInLeft<V>(t: Tree<V>, i: nat)
    requires t.Node? && i < |InOrderPaths(t.left)|
    requires ValidPath(t.left, InOrderPaths(t.left)[i])
    requires Successor(t.left, InOrderPaths(t.left)[i]) ==
      if i + 1 < |InOrderPaths(t.left)| then At(InOrderPaths(t.left)[i + 1]) else End
    ensures ValidPath(t, InOrderPaths(t)[i])
    ensures Successor(t, InOrderPaths(t)[i]) ==
      if i + 1 < |InOrderPaths(t)| then At(InOrderPaths(t)[i + 1]) else End
  {
    var ls := InOrderPaths(t.left);
    InOrderPathsAt(t, i);
    assert InOrderPaths(t)[i] == [Left] + ls[i];
    SuccessorUnder(t, Left, ls[i]);
    InOrderPathsAt(t, i + 1);
    if i + 1 < |ls| {
      assert InOrderPaths(t)[i + 1] == [Left] + ls[i + 1];
    } else {
      assert InOrderPaths(t)[i + 1] == [];
    }
  }

  lemma SuccessorInRight<V>(t: Tree<V>, i: nat)
    requires t.Node? && |InOrderPaths(t.left)| < i < |InOrderPaths(t)|
    requires var j := i - |InOrderPaths(t.left)| - 1;
      && j < |InOrderPaths(t.right)|
      && ValidPath(t.right, InOrderPaths(t.right)[j])
      && Successor(t.right, InOrderPaths(t.right)[j]) ==
        if j + 1 < |InOrderPaths(t.right)| then At(InOrderPaths(t.right)[j + 1]) else End
    ensures ValidPath(t, InOrderPaths(t)[i])
    ensures Successor(t, InOrderPaths(t)[i]) ==
      if i + 1 < |InOrderPaths(t)| then At(InOrderPaths(t)[i + 1]) else End
  {
    var rs := InOrderPaths(t.right);
    var j := i - |InOrderPaths(t.left)| - 1;
    InOrderPathsAt(t, i);
    assert InOrderPaths(t)[i] == [Right] + rs[j];
    SuccessorUnder(t, Right, rs[j]);
    if j + 1 < |rs| {
      InOrderPathsAt(t, i + 1);
      assert InOrderPaths(t)[i + 1] == [Right] + rs[j + 1];
    }
  }

  lemma SuccessorOfRoot<V>(t: Tree<V>)
    requires t.Node?
    ensures var i := |InOrderPaths(t.left)|;
      && i < |InOrderPaths(t)| && InOrderPaths(t)[i] == []
      && Successor(t, []) == if i + 1 < |InOrderPaths(t)| then At(InOrderPaths(t)[i + 1]) else End
  {
    InOrderPathsAt(t, |InOrderPaths(t.left)|);
    if t.right != Leaf {
      SuccessorOfRootDown(t);
    }
  }

  /** With a right subtree, the root's successor is the first node of it. */
  lemma SuccessorOfRootDown<V>(t: Tree<V>)
    requires t.Node? && t.right.Node?
    ensures |InOrderPaths(t.left)| + 1 < |InOrderPaths(t)|
    ensures Successor(t, []) == At(InOrderPaths(t)[|InOrderPaths(t.left)| + 1])
  {
    var i := |InOrderPaths(t.left)|;
    var m := Leftmost(t.right);
    assert Successor(t, []) == At([Right] + m) by {
      assert [] + [Right] + m == [Right] + m;
    }
    assert |InOrderPaths(t.right)| > 0 by {
      InOrderPathsCount(t.right);
    }
    assert m == InOrderPaths(t.right)[0] by {
      LeftmostIsFirst(t.right);
    }
    InOrderPathsAt(t, i + 1);
    assert InOrderPaths(t)[i + 1] == [Right] + m;
    assert |InOrderPaths(t.left)| + 1 < |InOrderPaths(t)|;
    assert Successor(t, []) == At(InOrderPaths(t)[|InOrderPaths(t.left)| + 1]);
  }

  /** The parent-walk predecessor of the `i`-th node in in-order is the
      `i-1`-th node, and null before the first one. */
  lemma {:induction false} PredecessorIsPrevious<V>(t: Tree<V>, i: nat)
    requires i < |InOrderPaths(t)|
    ensures ValidPath(t, InOrderPaths(t)[i])
    ensures Predecessor(t, InOrderPaths(t)[i]) ==
      if i > 0 then At(InOrderPaths(t)[i - 1]) else End
  {
    var nl := |InOrderPaths(t.left)|;
    InOrderPathsAt(t, i);
    if i < nl {
      PredecessorIsPrevious(t.left, i);
      PredecessorInLeft(t, i);
    } else if i > nl {
      PredecessorIsPrevious(t.right, i - nl - 1);
      PredecessorInRight(t, i);
    } else {
      PredecessorOfRoot(t);
    }
  }

  lemma PredecessorInLeft<V>(t: Tree<V>, i: nat)
    requires t.Node? && i < |InOrderPaths(t.left)|
    requires ValidPath(t.left, InOrderPaths(t.left)[i])
    requires Predecessor(t.left, InOrderPaths(t.left)[i]) ==
      if i > 0 then At(InOrderPaths(t.left)[i - 1]) else End
    ensures ValidPath(t, InOrderPaths(t)[i])
    ensures Predecessor(t, InOrderPaths(t)[i]) ==
      if i > 0 then At(InOrderPaths(t)[i - 1]) else End
  {
    var ls := InOrderPaths(t.left);
    InOrderPathsAt(t, i);
    assert InOrderPaths(t)[i] == [Left] + ls[i];
    PredecessorUnder(t, Left, ls[i]);
    if i > 0 {
      InOrderPathsAt(t, i - 1);
      assert InOrderPaths(t)[i - 1] == [Left] + ls[i - 1];
    }
  }

  lemma PredecessorInRight<V>(t: Tree<V>, i: nat)
    requires t.Node? && |InOrderPaths(t.left)| < i < |InOrderPaths(t)|
    requires var j := i - |InOrderPaths(t.left)| - 1;
      && j < |InOrderPaths(t.right)|
      && ValidPath(t.right, InOrderPaths(t.right)[j])
      && Predecessor(t.right, InOrderPaths(t.right)[j]) ==
        if j > 0 then At(InOrderPaths(t.right)[j - 1]) else End
    ensures ValidPath(t, InOrderPaths(t)[i])
    ensures Predecessor(t, InOrderPaths(t)[i]) ==
      if i > 0 then At(InOrderPaths(t)[i - 1]) else End
  {
    var rs := InOrderPaths(t.right);
    var j := i - |InOrderPaths(t.left)| - 1;
    InOrderPathsAt(t, i);
    assert InOrderPaths(t)[i] == [Right] + rs[j];
    PredecessorUnder(t, Right, rs[j]);
    InOrderPathsAt(t, i - 1);
    if j > 0 {
      assert InOrderPaths(t)[i - 1] == [Right] + rs[j - 1];
    } else {
      assert InOrderPaths(t)[i - 1] == [];
    }
  }

  lemma PredecessorOfRoot<V>(t: Tree<V>)
    requires t.Node?
    ensures var i := |InOrderPaths(t.left)|;
      && i < |InOrderPaths(t)| && InOrderPaths(t)[i] == []
      && Predecessor(t, []) == if i > 0 then At(InOrderPaths(t)[i - 1]) else End
  {
    InOrderPathsAt(t, |InOrderPaths(t.left)|);
    if t.left != Leaf {
      PredecessorOfRootDown(t);
    }
  }

  /** With a left subtree, the root's predecessor is the last node of it. */
  lemma PredecessorOfRootDown<V>(t: Tree<V>)
    requires t.Node? && t.left.Node?
    ensures 0 < |InOrderPaths(t.left)| < |InOrderPaths(t)|
    ensures Predecessor(t, []) == At(InOrderPaths(t)[|InOrderPaths(t.left)| - 1])
  {
    var i := |InOrderPaths(t.left)|;
    var m := Rightmost(t.left);
    assert Predecessor(t, []) == At([Left] + m) by {
      assert [] + [Left] + m == [Left] + m;
    }
    assert i > 0 by {
      InOrderPathsCount(t.left);
    }
    assert m == InOrderPaths(t.left)[i - 1] by {
      RightmostIsLast(t.left);
    }
    InOrderPathsAt(t, i - 1);
    assert InOrderPaths(t)[i - 1] == [Left] + m;
  }

  // ---------------------------------------------------------------------------
  // Keys and the search-tree order

  lemma {:induction false} SubtreeFacts<V>(t: Tree<V>, p: Path)
    ensures Keys(Subtree(t, p)) <= Keys(t)
    ensures IsBst(t) ==> IsBst(Subtree(t, p))
    decreases |p|
  {
    if |p| > 0 && t.Node? {
      SubtreeFacts(if p[0] == Left then t.left else t.right, p[1..]);
    }
  }

  lemma {:induction false} InOrderKeysAreKeys<V>(t: Tree<V>)
    ensures forall i | 0 <= i < |InOrder(t)| :: InOrder(t)[i].0 in Keys(t)
  {
    match t
    case Leaf =>
    case Node(l, k, v, r) =>
      InOrderKeysAreKeys(l);
      InOrderKeysAreKeys(r);
      var nl := |InOrder(l)|;
      forall i | 0 <= i < |InOrder(t)| ensures InOrder(t)[i].0 in Keys(t) {
        if i < nl {
          assert InOrder(t)[i] == InOrder(l)[i];
        } else if i > nl {
          assert InOrder(t)[i] == InOrder(r)[i - nl - 1];
        }
      }
  }

  /** A key is in the tree exactly when some in-order entry carries it. */
  lemma {:induction false} KeysFoundInOrder<V>(t: Tree<V>, x: int)
    ensures x in Keys(t) <==> FirstIndex(InOrder(t), x).Some?
  {
    match t
    case Leaf =>
    case Node(l, k, v, r) =>
      KeysFoundInOrder(l, x);
      KeysFoundInOrder(r, x);
      var front := InOrder(l) + [(k, v)];
      assert InOrder(t) == front + InOrder(r);
      if FirstIndex(InOrder(l), x).Some? {
        FirstIndexInFront(InOrder(l), [(k, v)], x);
      } else {
        FirstIndexPastFront(InOrder(l), [(k, v)], x);
      }
      if FirstIndex(front, x).Some? {
        FirstIndexInFront(front, InOrder(r), x);
      } else {
        FirstIndexPastFront(front, InOrder(r), x);
      }
  }

  /** In-order traversal of a search tree meets the keys in non-decreasing order. */
  lemma {:induction false} BstInOrderSorted<V>(t: Tree<V>)
    requires IsBst(t)
    ensures forall i, j | 0 <= i < j < |InOrder(t)| :: InOrder(t)[i].0 <= InOrder(t)[j].0
  {
    match t
    case Leaf =>
    case Node(l, k, v, r) =>
      BstInOrderSorted(l);
      BstInOrderSorted(r);
      InOrderKeysAreKeys(l);
      InOrderKeysAreKeys(r);
      var s := InOrder(t);
      var nl := |InOrder(l)|;
      forall i, j | 0 <= i < j < |s| ensures s[i].0 <= s[j].0 {
        if j < nl {
          assert s[i] == InOrder(l)[i] && s[j] == InOrder(l)[j];
        } else if i > nl {
          assert s[i] == InOrder(r)[i - nl - 1] && s[j] == InOrder(r)[j - nl - 1];
        } else {
          assert i < nl ==> s[i] == InOrder(l)[i];
          assert j > nl ==> s[j] == InOrder(r)[j - nl - 1];
        }
      }
  }

  /** The `i`-th iterator position: the `i`-th node in in-order, or the end. */
  function IterAt<V>(t: Tree<V>, i: nat): Iter {
    if i < |InOrderPaths(t)| then At(InOrderPaths(t)[i]) else End
  }

  /** `treeMinimum` of the root, which is `begin()`: the leftmost node, null
      for an empty tree. */
  function TreeMinimum<V>(t: Tree<V>): (r: Iter)
    ensures r.End? <==> t == Leaf
    ensures r == IterAt(t, 0)
    ensures r.At? ==> ValidPath(t, r.path)
  {
    if t == Leaf then End
    else
      LeftmostIsFirst(t);
      At(Leftmost(t))
  }

  /** `treeMaximum` of the root, which is where `--` from `end()` goes: the
      rightmost node, null for an empty tree. */
  function TreeMaximum<V>(t: Tree<V>): (r: Iter)
    ensures r.End? <==> t.Leaf?
    ensures t.Node? ==> r == IterAt(t, Count(t) - 1)
    ensures r.At? ==> ValidPath(t, r.path)
  {
    if t.Leaf? then End
    else
      RightmostIsAt(t);
      At(Rightmost(t))
  }

  /** The rightmost node is the last in in-order. */
  lemma RightmostIsAt<V>(t: Tree<V>)
    requires t.Node?
    ensures 0 < |InOrderPaths(t)| == Count(t)
    ensures InOrderPaths(t)[Count(t) - 1] == Rightmost(t)
  {
    RightmostIsLast(t);
    InOrderPathsCount(t);
  }

  /** In a search tree the minimum holds the smallest key and the maximum
      the largest. */
  lemma BstEndsAreExtreme<V>(t: Tree<V>)
    requires t.Node? && IsBst(t)
    ensures forall x | x in Keys(t) ::
      Subtree(t, TreeMinimum(t).path).key <= x <= Subtree(t, TreeMaximum(t).path).key
  {
    InOrderPathsMatch(t);
    LeftmostIsFirst(t);
    RightmostIsLast(t);
    BstInOrderSorted(t);
    var s := InOrder(t);
    forall x | x in Keys(t) ensures s[0].0 <= x <= s[|s| - 1].0 {
      KeysFoundInOrder(t, x);
    }
  }

  function Lift(d: Dir, it: Iter): Iter {
    match it
    case End => End
    case At(q) => At([d] + q)
  }

  /** `find`: descend left when `key` is below the node's key, right
      otherwise, and stop at the first node holding `key` or at null. */
  function Find<V>(t: Tree<V>, key: int): (r: Iter)
    ensures r.At? ==> ValidPath(t, r.path) && Subtree(t, r.path).key == key
  {
    match t
    case Leaf => End
    case Node(l, k, _, rt) =>
      if k == key then At([])
      else if key < k then
        match Find(l, key)
        case End => End
        case At(q) =>
          SubtreeCons(t, Left, q);
          At([Left] + q)
      else
        match Find(rt, key)
        case End => End
        case At(q) =>
          SubtreeCons(t, Right, q);
          At([Right] + q)
  }

  /** In a search tree `find` reaches null exactly when the key is absent. */
  lemma {:induction false} FindIsComplete<V>(t: Tree<V>, key: int)
    ensures IsBst(t) ==> (Find(t, key).End? <==> key !in Keys(t))
  {
    match t
    case Leaf =>
    case Node(l, k, _, r) =>
      if key < k {
        FindIsComplete(l, key);
      } else if key > k {
        FindIsComplete(r, key);
      }
  }

  lemma RankCons<V>(t: Tree<V>, d: Dir, q: Path)
    requires t.Node? && ValidPath(if d == Left then t.left else t.right, q)
    ensures ValidPath(t, [d] + q)
    ensures Rank(t, [d] + q) ==
      if d == Left then Rank(t.left, q) else |InOrderPaths(t.left)| + 1 + Rank(t.right, q)
  {
    SubtreeCons(t, d, q);
    assert ([d] + q)[1..] == q;
  }

  /** In a search tree, `find` stops at the first in-order entry holding the
      key (equal keys only ever sit in right subtrees of each other). */
  lemma {:induction false} FindIsFirstInOrder<V>(t: Tree<V>, key: int)
    requires IsBst(t)
    ensures Find(t, key).End? ==> FirstIndex(InOrder(t), key).None?
    ensures Find(t, key).At? ==> FirstIndex(InOrder(t), key) == Some(Rank(t, Find(t, key).path))
  {
    match t
    case Leaf =>
    case Node(l, k, v, r) =>
      assert key < k ==> key !in Keys(r);
      assert key >= k ==> key !in Keys(l);
      if key == k {
        FirstAtRoot(t, key);
      } else if key < k {
        FindIsFirstInOrder(l, key);
        FirstOnTheLeft(t, key);
      } else {
        FindIsFirstInOrder(r, key);
        FirstOnTheRight(t, key);
      }
  }

  lemma FirstAtRoot<V>(t: Tree<V>, key: int)
    requires t.Node? && key == t.key && key !in Keys(t.left)
    ensures Find(t, key) == At([]) && FirstIndex(InOrder(t), key) == Some(Rank(t, []))
  {
    var front := InOrder(t.left) + [(t.key, t.value)];
    assert InOrder(t) == front + InOrder(t.right);
    assert |InOrderPaths(t.left)| == |InOrder(t.left)| by {
      InOrderPathsCount(t.left);
    }
    KeysFoundInOrder(t.left, key);
    FirstIndexPastFront(InOrder(t.left), [(t.key, t.value)], key);
    FirstIndexInFront(front, InOrder(t.right), key);
  }

  lemma FirstOnTheLeft<V>(t: Tree<V>, key: int)
    requires t.Node? && key < t.key && key !in Keys(t.right)
    requires Find(t.left, key).End? ==> FirstIndex(InOrder(t.left), key).None?
    requires Find(t.left, key).At? ==> FirstIndex(InOrder(t.left), key) == Some(Rank(t.left, Find(t.left, key).path))
    ensures Find(t, key).End? ==> FirstIndex(InOrder(t), key).None?
    ensures Find(t, key).At? ==> FirstIndex(InOrder(t), key) == Some(Rank(t, Find(t, key).path))
  {
    var front := InOrder(t.left) + [(t.key, t.value)];
    assert InOrder(t) == front + InOrder(t.right);
    var f := Find(t.left, key);
    assert Find(t, key) == Lift(Left, f);
    if f.At? {
      RankCons(t, Left, f.path);
      FirstIndexInFront(InOrder(t.left), [(t.key, t.value)], key);
      FirstIndexInFront(front, InOrder(t.right), key);
    } else {
      KeysFoundInOrder(t.right, key);
      FirstIndexPastFront(InOrder(t.left), [(t.key, t.value)], key);
      FirstIndexPastFront(front, InOrder(t.right), key);
    }
  }

  lemma FirstOnTheRight<V>(t: Tree<V>, key: int)
    requires t.Node? && key > t.key && key !in Keys(t.left)
    requires Find(t.right, key).End? ==> FirstIndex(InOrder(t.right), key).None?
    requires Find(t.right, key).At? ==> FirstIndex(InOrder(t.right), key) == Some(Rank(t.right, Find(t.right, key).path))
    ensures Find(t, key).End? ==> FirstIndex(InOrder(t), key).None?
    ensures Find(t, key).At? ==> FirstIndex(InOrder(t), key) == Some(Rank(t, Find(t, key).path))
  {
    var f := Find(t.right, key);
    assert Find(t, key) == Lift(Right, f);
    if f.At? {
      var q := f.path;
      var j := Rank(t.right, q);
      assert Find(t, key) == At([Right] + q);
      assert FirstIndex(InOrder(t), key) == Some(Count(t.left) + 1 + j) by {
        FirstPastLeftAndRoot(t, key);
      }
      assert Rank(t, [Right] + q) == Count(t.left) + 1 + j by {
        RankCons(t, Right, q);
        InOrderPathsCount(t.left);
      }
    } else {
      assert Find(t, key) == End;
      assert FirstIndex(InOrder(t), key) == None by {
        FirstPastLeftAndRoot(t, key);
      }
    }
  }

  /** With the key absent on the left and not at the root, its first
      in-order position lies in the right subtree. */
  lemma FirstPastLeftAndRoot<V>(t: Tree<V>, key: int)
    requires t.Node? && key != t.key && key !in Keys(t.left)
    ensures FirstIndex(InOrder(t.right), key).None? ==> FirstIndex(InOrder(t), key).None?
    ensures FirstIndex(InOrder(t.right), key).Some? ==>
      FirstIndex(InOrder(t), key) == Some(Count(t.left) + 1 + FirstIndex(InOrder(t.right), key).value)
  {
    var front := InOrder(t.left) + [(t.key, t.value)];
    assert InOrder(t) == front + InOrder(t.right);
    assert FirstIndex(front, key) == None by {
      KeysFoundInOrder(t.left, key);
      FirstIndexPastFront(InOrder(t.left), [(t.key, t.value)], key);
    }
    FirstIndexPastFront(front, InOrder(t.right), key);
  }

  /** `valueOf`: the value `find` reaches, or `out_of_range` when it reaches null. */
  function ValueOf<V>(t: Tree<V>, key: int): (r: Result<V>)
    ensures r.Err? <==> Find(t, key).End?
    ensures r.Err? ==> r.error == NotFound
    ensures r.Ok? ==> (key, r.value) in InOrder(t)
  {
    match Find(t, key)
    case End => Err(NotFound)
    case At(p) =>
      InOrderPathsMatch(t);
      assert InOrder(t)[Rank(t, p)] == EntryAt(t, p);
      Ok(Subtree(t, p).value)
  }

  /** In a search tree `valueOf` raises exactly for an absent key, and
      otherwise returns the value of the first in-order entry with that key. */
  lemma ValueOfInSearchTree<V>(t: Tree<V>, key: int)
    requires IsBst(t)
    ensures ValueOf(t, key).Err? <==> key !in Keys(t)
    ensures ValueOf(t, key).Ok? ==>
      FirstIndex(InOrder(t), key).Some? && ValueOf(t, key).value == InOrder(t)[FirstIndex(InOrder(t), key).value].1
  {
    FindIsComplete(t, key);
    FindIsFirstInOrder(t, key);
    match Find(t, key)
    case End =>
    case At(p) =>
      InOrderPathsMatch(t);
      assert InOrder(t)[Rank(t, p)] == EntryAt(t, p);
  }

  // ---------------------------------------------------------------------------
  // Insertion

  /** `insert` (CLRS TREE-INSERT): descend left when the new key is below the
      node's key and right otherwise, and hang a new leaf in the null slot
      reached. Returns the new tree and the new node. */
  function Insert<V>(t: Tree<V>, key: int, v: V): (r: (Tree<V>, Path))
    ensures Subtree(t, r.1) == Leaf && (|r.1| > 0 ==> ValidPath(t, r.1[..|r.1| - 1]))
    ensures r.0 == ReplaceAt(t, r.1, Node(Leaf, key, v, Leaf))
    ensures Subtree(r.0, r.1) == Node(Leaf, key, v, Leaf)
  {
    match t
    case Leaf => (Node(Leaf, key, v, Leaf), [])
    case Node(l, k, w, rt) =>
      var d := if key < k then Left else Right;
      var c := Insert(if key < k then l else rt, key, v);
      var t' := if key < k then Node(c.0, k, w, rt) else Node(l, k, w, c.0);
      InsertStep(t, d, c.1, c.0);
      assert ([d] + c.1)[1..] == c.1;
      (t', [d] + c.1)
  }

  lemma InsertStep<V>(t: Tree<V>, d: Dir, q: Path, c': Tree<V>)
    requires t.Node?
    requires |q| > 0 ==> ValidPath(if d == Left then t.left else t.right, q[..|q| - 1])
    ensures |[d] + q| > 0 && ValidPath(t, ([d] + q)[..|q|])
    ensures Subtree(t, [d] + q) == Subtree(if d == Left then t.left else t.right, q)
    ensures Subtree(if d == Left then Node(c', t.key, t.value, t.right) else Node(t.left, t.key, t.value, c'), [d] + q)
      == Subtree(c', q)
  {
    SubtreeCons(t, d, q);
    SubtreeCons(if d == Left then Node(c', t.key, t.value, t.right) else Node(t.left, t.key, t.value, c'), d, q);
    if |q| > 0 {
      assert ([d] + q)[..|q|] == [d] + q[..|q| - 1];
      SubtreeCons(t, d, q[..|q| - 1]);
    } else {
      assert ([d] + q)[..0] == [];
    }
  }

  /** Insertion adds exactly the new entry, adds its key, and keeps the
      search-tree property. */
  lemma {:induction false} InsertAddsEntry<V>(t: Tree<V>, key: int, v: V)
    ensures multiset(InOrder(Insert(t, key, v).0)) == multiset(InOrder(t)) + multiset{(key, v)}
    ensures Count(Insert(t, key, v).0) == Count(t) + 1
  {
    match t
    case Leaf =>
    case Node(l, k, w, r) =>
      NodeEntries(l, k, w, r);
      if key < k {
        InsertAddsEntry(l, key, v);
        var l' := Insert(l, key, v).0;
        assert Insert(t, key, v).0 == Node(l', k, w, r);
        NodeEntries(l', k, w, r);
      } else {
        InsertAddsEntry(r, key, v);
        var r' := Insert(r, key, v).0;
        assert Insert(t, key, v).0 == Node(l, k, w, r');
        NodeEntries(l, k, w, r');
      }
  }

  /** The entries of a node: those of its subtrees and its own. */
  lemma NodeEntries<V>(l: Tree<V>, k: int, w: V, r: Tree<V>)
    ensures multiset(InOrder(Node(l, k, w, r))) == multiset(InOrder(l)) + multiset{(k, w)} + multiset(InOrder(r))
    ensures Count(Node(l, k, w, r)) == Count(l) + Count(r) + 1
  {
    assert InOrder(Node(l, k, w, r)) == InOrder(l) + [(k, w)] + InOrder(r);
  }

  lemma {:induction false} InsertAddsKey<V>(t: Tree<V>, key: int, v: V)
    ensures Keys(Insert(t, key, v).0) == Keys(t) + {key}
  {
    match t
    case Leaf =>
    case Node(l, k, w, r) =>
      if key < k {
        InsertAddsKey(l, key, v);
        assert Insert(t, key, v).0 == Node(Insert(l, key, v).0, k, w, r);
      } else {
        InsertAddsKey(r, key, v);
        assert Insert(t, key, v).0 == Node(l, k, w, Insert(r, key, v).0);
      }
  }

  lemma {:induction false} InsertKeepsBst<V>(t: Tree<V>, key: int, v: V)
    ensures IsBst(t) ==> IsBst(Insert(t, key, v).0)
  {
    match t
    case Leaf =>
    case Node(l, k, w, r) =>
      if key < k {
        InsertKeepsBst(l, key, v);
        InsertAddsKey(l, key, v);
        assert Insert(t, key, v).0 == Node(Insert(l, key, v).0, k, w, r);
      } else {
        InsertKeepsBst(r, key, v);
        InsertAddsKey(r, key, v);
        assert Insert(t, key, v).0 == Node(l, k, w, Insert(r, key, v).0);
      }
  }

  /** The new node hangs at the end of the search path: each step goes left
      exactly when the new key is below the key of the node it leaves. */
  lemma {:induction false} InsertFollowsSearchPath<V>(t: Tree<V>, key: int, v: V)
    ensures forall i | 0 <= i < |Insert(t, key, v).1| ::
      ValidPath(t, Insert(t, key, v).1[..i]) && (Insert(t, key, v).1[i] == Left <==> key < Subtree(t, Insert(t, key, v).1[..i]).key)
  {
    match t
    case Leaf =>
    case Node(l, k, w, r) =>
      var d := if key < k then Left else Right;
      var c := if key < k then l else r;
      InsertFollowsSearchPath(c, key, v);
      var q := Insert(c, key, v).1;
      var p := Insert(t, key, v).1;
      assert p == [d] + q;
      forall i | 0 <= i < |p| ensures ValidPath(t, p[..i]) && (p[i] == Left <==> key < Subtree(t, p[..i]).key) {
        if i == 0 {
          assert p[..0] == [];
        } else {
          assert p[..i] == [d] + q[..i - 1];
          assert p[i] == q[i - 1];
          assert ValidPath(c, q[..i - 1]) && (q[i - 1] == Left <==> key < Subtree(c, q[..i - 1]).key);
          SubtreeCons(t, d, q[..i - 1]);
        }
      }
  }

  /** One step of `valueOf`: the root answers for its own key, otherwise the
      side the key belongs to does. */
  lemma ValueOfStep<V>(t: Tree<V>, x: int)
    requires t.Node?
    ensures ValueOf(t, x) ==
      if t.key == x then Ok(t.value) else if x < t.key then ValueOf(t.left, x) else ValueOf(t.right, x)
  {
    if t.key != x {
      var d := if x < t.key then Left else Right;
      var f := Find(if x < t.key then t.left else t.right, x);
      if f.At? {
        SubtreeCons(t, d, f.path);
      }
    }
  }

  /** After inserting a key that `find` did not reach, `find` reaches the new node. */
  lemma {:induction false} FindAfterInsert<V>(t: Tree<V>, key: int, v: V)
    requires Find(t, key).End?
    ensures Find(Insert(t, key, v).0, key) == At(Insert(t, key, v).1)
  {
    match t
    case Leaf =>
    case Node(l, k, w, r) =>
      if key < k {
        FindAfterInsert(l, key, v);
        assert Insert(t, key, v).0 == Node(Insert(l, key, v).0, k, w, r);
      } else {
        FindAfterInsert(r, key, v);
        assert Insert(t, key, v).0 == Node(l, k, w, Insert(r, key, v).0);
      }
  }

  /** Inserting one key leaves the lookup of every other key unchanged. */
  lemma {:induction false} ValueOfAfterInsert<V>(t: Tree<V>, key: int, v: V, x: int)
    requires x != key
    ensures ValueOf(Insert(t, key, v).0, x) == ValueOf(t, x)
  {
    var t' := Insert(t, key, v).0;
    match t
    case Leaf =>
      ValueOfStep(t', x);
    case Node(l, k, w, r) =>
      ValueOfStep(t, x);
      ValueOfStep(t', x);
      if key < k {
        assert t' == Node(Insert(l, key, v).0, k, w, r);
        if x != k && x < k {
          ValueOfAfterInsert(l, key, v, x);
        }
      } else {
        assert t' == Node(l, k, w, Insert(r, key, v).0);
        if x != k && !(x < k) {
          ValueOfAfterInsert(r, key, v, x);
        }
      }
  }

  /** Writing `v` into the value slot of the node at `p`: the assignment
      through the reference that `operator[]` returns. */
  function SetValue<V>(t: Tree<V>, p: Path, v: V): (r: Tree<V>)
    requires ValidPath(t, p)
    ensures ValidPath(r, p) && EntryAt(r, p) == (Subtree(t, p).key, v)
    ensures Keys(r) == Keys(t) && Count(r) == Count(t)
    ensures IsBst(t) ==> IsBst(r)
    ensures Rank(t, p) < |InOrder(t)|
    ensures InOrder(r) == InOrder(t)[Rank(t, p) := (Subtree(t, p).key, v)]
    decreases |p|
  {
    if |p| == 0 then
      InOrderWriteRoot(t, v);
      t.(value := v)
    else
      var d, q := p[0], p[1..];
      var c := SetValue(if d == Left then t.left else t.right, q, v);
      var r := if d == Left then Node(c, t.key, t.value, t.right) else Node(t.left, t.key, t.value, c);
      assert p == [d] + q;
      SubtreeCons(t, d, q);
      SubtreeCons(r, d, q);
      InOrderWriteBelow(t, d, q, c, (Subtree(t, p).key, v));
      RebuildKeeps(t, d, c);
      r
  }

  /** A node whose child is replaced by one with the same keys and count
      keeps its keys and count, and stays a search tree. */
  lemma RebuildKeeps<V>(t: Tree<V>, d: Dir, c: Tree<V>)
    requires t.Node?
    requires var ch := if d == Left then t.left else t.right;
      Keys(c) == Keys(ch) && Count(c) == Count(ch) && (IsBst(ch) ==> IsBst(c))
    ensures var r := if d == Left then Node(c, t.key, t.value, t.right) else Node(t.left, t.key, t.value, c);
      Keys(r) == Keys(t) && Count(r) == Count(t) && (IsBst(t) ==> IsBst(r))
  {
  }

  /** The write trades the node's entry for the written one in the in-order
      multiset. */
  lemma SetValueEntries<V>(t: Tree<V>, p: Path, v: V)
    requires ValidPath(t, p)
    ensures EntryAt(t, p) in multiset(InOrder(t))
    ensures multiset(InOrder(SetValue(t, p, v))) ==
      multiset(InOrder(t)) - multiset{EntryAt(t, p)} + multiset{(Subtree(t, p).key, v)}
  {
    var i := Rank(t, p);
    InOrderPathsMatch(t);
    assert InOrder(t)[i] == EntryAt(t, p);
  }

  /** Writing the root's value replaces the root's entry in in-order. */
  lemma InOrderWriteRoot<V>(t: Tree<V>, v: V)
    requires t.Node?
    ensures Rank(t, []) < |InOrder(t)|
    ensures InOrder(t.(value := v)) == InOrder(t)[Rank(t, []) := (t.key, v)]
  {
    InOrderPathsMatch(t.left);
    var l, r := InOrder(t.left), InOrder(t.right);
    assert Rank(t, []) == |l|;
    UpdateMiddle(l, [(t.key, t.value)], r, 0, (t.key, v));
    assert [(t.key, t.value)][0 := (t.key, v)] == [(t.key, v)];
  }

  /** Replacing one entry of a child subtree's in-order replaces the entry at
      the same node's rank in the whole tree. */
  lemma InOrderWriteBelow<V>(t: Tree<V>, d: Dir, q: Path, c: Tree<V>, e: (int, V))
    requires t.Node? && ValidPath(if d == Left then t.left else t.right, q)
    requires var ch := if d == Left then t.left else t.right;
      Rank(ch, q) < |InOrder(ch)| && InOrder(c) == InOrder(ch)[Rank(ch, q) := e]
    ensures ValidPath(t, [d] + q) && Rank(t, [d] + q) < |InOrder(t)|
    ensures InOrder(if d == Left then Node(c, t.key, t.value, t.right) else Node(t.left, t.key, t.value, c))
      == InOrder(t)[Rank(t, [d] + q) := e]
  {
    RankCons(t, d, q);
    if d == Left {
      UpdateLeft(InOrder(t.left), [(t.key, t.value)] + InOrder(t.right), Rank(t.left, q), e);
    } else {
      InOrderPathsMatch(t.left);
      UpdateRight(InOrder(t.left) + [(t.key, t.value)], InOrder(t.right), Rank(t.right, q), e);
    }
  }

  /** After the write, the key of that node reads `v` and every other lookup
      is unchanged. */
  lemma {:induction false} ValueOfAfterSetValue<V>(t: Tree<V>, p: Path, v: V, x: int)
    requires ValidPath(t, p)
    ensures ValueOf(SetValue(t, p, v), x) == if Find(t, x) == At(p) then Ok(v) else ValueOf(t, x)
    decreases |p|
  {
    var t' := SetValue(t, p, v);
    ValueOfStep(t, x);
    ValueOfStep(t', x);
    if |p| > 0 {
      var d := p[0];
      var q := p[1..];
      assert p == [d] + q;
      var c := if d == Left then t.left else t.right;
      SubtreeCons(t, d, q);
      ValueOfAfterSetValue(c, q, v, x);
      if t.key != x {
        var e := if x < t.key then Left else Right;
        var f := Find(if x < t.key then t.left else t.right, x);
        assert Find(t, x) == Lift(e, f);
        if e != d {
          assert Find(t, x) != At(p);
        } else {
          assert (Find(t, x) == At(p)) == (f == At(q));
        }
      }
    }
  }

  /** `operator[]`: the node `find` reaches, or a new node holding
      `(key, dflt)` inserted when `find` reaches null. The path names the
      returned value reference. */
  function Index<V>(t: Tree<V>, key: int, dflt: V): (r: (Tree<V>, Path))
    ensures ValidPath(r.0, r.1) && Subtree(r.0, r.1).key == key
    ensures Find(r.0, key) == At(r.1)
    ensures Find(t, key).At? ==> r.0 == t
    ensures Find(t, key).End? ==>
      multiset(InOrder(r.0)) == multiset(InOrder(t)) + multiset{(key, dflt)} && Subtree(r.0, r.1).value == dflt
    ensures Keys(r.0) == Keys(t) + {key}
    ensures IsBst(t) ==> IsBst(r.0)
    ensures Count(r.0) == Count(t) + (if Find(t, key).At? then 0 else 1)
  {
    match Find(t, key)
    case At(p) =>
      SubtreeFacts(t, p);
      (t, p)
    case End =>
      InsertAddsEntry(t, key, dflt);
      InsertAddsKey(t, key, dflt);
      InsertKeepsBst(t, key, dflt);
      FindAfterInsert(t, key, dflt);
      Insert(t, key, dflt)
  }

  /** `map[key] = v`: `operator[]` followed by a write through the returned
      reference. */
  function Assign<V>(t: Tree<V>, key: int, v: V, dflt: V): (r: Tree<V>)
    ensures ValueOf(r, key) == Ok(v)
    ensures forall x | x != key :: ValueOf(r, x) == ValueOf(t, x)
    ensures Keys(r) == Keys(t) + {key}
    ensures IsBst(t) ==> IsBst(r)
    ensures Count(r) == Count(t) + (if ValueOf(t, key).Ok? then 0 else 1)
    ensures Find(t, key).At? ==> Rank(t, Find(t, key).path) < |InOrder(t)|
    ensures Find(t, key).At? ==> InOrder(r) == InOrder(t)[Rank(t, Find(t, key).path) := (key, v)]
    ensures Find(t, key).End? ==> multiset(InOrder(r)) == multiset(InOrder(t)) + multiset{(key, v)}
  {
    var (t', p) := Index(t, key, dflt);
    var r := SetValue(t', p, v);
    ValueOfAfterSetValue(t', p, v, key);
    IndexThenWrite(t, key, v, dflt);
    forall x | x != key ensures ValueOf(r, x) == ValueOf(t, x) {
      ValueOfAfterSetValue(t', p, v, x);
      if Find(t, key).End? {
        ValueOfAfterInsert(t, key, dflt, x);
      }
    }
    r
  }

  /** The in-order effect of `map[key] = v`: the key's entry is rewritten
      in place when `find` reaches it, and otherwise `(key, v)` is added. */
  lemma IndexThenWrite<V>(t: Tree<V>, key: int, v: V, dflt: V)
    ensures ValidPath(Index(t, key, dflt).0, Index(t, key, dflt).1)
    ensures Find(t, key).At? ==> Rank(t, Find(t, key).path) < |InOrder(t)|
    ensures Find(t, key).At? ==>
      InOrder(SetValue(Index(t, key, dflt).0, Index(t, key, dflt).1, v)) ==
        InOrder(t)[Rank(t, Find(t, key).path) := (key, v)]
    ensures Find(t, key).End? ==>
      multiset(InOrder(SetValue(Index(t, key, dflt).0, Index(t, key, dflt).1, v))) ==
        multiset(InOrder(t)) + multiset{(key, v)}
  {
    var (t', p) := Index(t, key, dflt);
    if Find(t, key).End? {
      SetValueEntries(t', p, v);
      assert EntryAt(t', p) == (key, dflt);
    } else {
      assert t' == t && p == Find(t, key).path;
    }
  }

  /** The initializer-list constructor: each entry inserted in list order,
      duplicates included. */
  function FromList<V>(entries: seq<(int, V)>): (t: Tree<V>)
    ensures IsBst(t)
    ensures multiset(InOrder(t)) == multiset(entries)
    ensures Count(t) == |entries|
    decreases |entries|
  {
    if |entries| == 0 then Leaf
    else
      var front := entries[..|entries| - 1];
      var e := entries[|entries| - 1];
      assert entries == front + [e];
      assert multiset(entries) == multiset(front) + multiset{e};
      var t0 := FromList(front);
      InsertAddsEntry(t0, e.0, e.1);
      InsertKeepsBst(t0, e.0, e.1);
      Insert(t0, e.0, e.1).0
  }

  /** A map filled only through `operator[]`, one call per key in order. */
  function IndexAll<V>(keys: seq<int>, dflt: V): (t: Tree<V>)
    ensures IsBst(t)
    ensures Keys(t) == set x | x in keys
    ensures Count(t) == |Keys(t)|
    decreases |keys|
  {
    if |keys| == 0 then Leaf
    else
      var front := keys[..|keys| - 1];
      var k := keys[|keys| - 1];
      assert (set x | x in keys) == (set x | x in front) + {k} by {
        assert keys == front + [k];
      }
      var t0 := IndexAll(front, dflt);
      IndexKeepsKeysDistinct(t0, k, dflt);
      Index(t0, k, dflt).0
  }

  /** `operator[]` on a search tree whose keys are distinct keeps them distinct. */
  lemma IndexKeepsKeysDistinct<V>(t: Tree<V>, key: int, dflt: V)
    requires IsBst(t) && Count(t) == |Keys(t)|
    ensures var r := Index(t, key, dflt).0;
      IsBst(r) && Keys(r) == Keys(t) + {key} && Count(r) == |Keys(r)|
  {
    FindIsComplete(t, key);
  }

  // ---------------------------------------------------------------------------
  // Removal

  /** The in-order entries that come before the subtree at `p`. */
  function Before<V>(t: Tree<V>, p: Path): seq<(int, V)>
    decreases |p|
  {
    if |p| == 0 then []
    else match t
      case Leaf => []
      case Node(l, k, v, r) =>
        if p[0] == Left then Before(l, p[1..]) else InOrder(l) + [(k, v)] + Before(r, p[1..])
  }

  /** The in-order entries that come after the subtree at `p`. */
  function After<V>(t: Tree<V>, p: Path): seq<(int, V)>
    decreases |p|
  {
    if |p| == 0 then []
    else match t
      case Leaf => []
      case Node(l, k, v, r) =>
        if p[0] == Left then After(l, p[1..]) + [(k, v)] + InOrder(r) else After(r, p[1..])
  }

  /** The subtree at `p` covers one stretch of the in-order sequence. */
  lemma {:induction false} InOrderAround<V>(t: Tree<V>, p: Path)
    requires ValidPath(t, p)
    ensures InOrder(t) == Before(t, p) + InOrder(Subtree(t, p)) + After(t, p)
    decreases |p|
  {
    if |p| > 0 {
      var q := p[1..];
      assert p == [p[0]] + q;
      SubtreeCons(t, p[0], q);
      if p[0] == Left {
        InOrderAround(t.left, q);
      } else {
        InOrderAround(t.right, q);
      }
    }
  }

  /** The rank of a node counts the entries before its subtree and those of
      its left subtree. */
  lemma {:induction false} RankCountsBefore<V>(t: Tree<V>, p: Path)
    requires ValidPath(t, p)
    ensures Rank(t, p) == |Before(t, p)| + Count(Subtree(t, p).left)
    decreases |p|
  {
    InOrderPathsCount(t.left);
    if |p| > 0 {
      var q := p[1..];
      assert p == [p[0]] + q;
      SubtreeCons(t, p[0], q);
      if p[0] == Left {
        RankCountsBefore(t.left, q);
      } else {
        RankCountsBefore(t.right, q);
      }
    }
  }

  /** Replacing the subtree at `p` replaces its stretch of the in-order
      sequence and nothing else. */
  lemma {:induction false} ReplaceAtInOrder<V>(t: Tree<V>, p: Path, s: Tree<V>)
    requires ValidPath(t, p)
    ensures InOrder(ReplaceAt(t, p, s)) == Before(t, p) + InOrder(s) + After(t, p)
    decreases |p|
  {
    if |p| > 0 {
      var q := p[1..];
      assert p == [p[0]] + q;
      SubtreeCons(t, p[0], q);
      if p[0] == Left {
        ReplaceAtInOrder(t.left, q, s);
      } else {
        ReplaceAtInOrder(t.right, q, s);
      }
    }
  }

  /** Replacing a subtree of a search tree by a search tree over some of its
      keys keeps the search-tree property and adds no key. */
  lemma {:induction false} ReplaceAtKeepsBst<V>(t: Tree<V>, p: Path, s: Tree<V>)
    requires ValidPath(t, p) && IsBst(t) && IsBst(s)
    requires Keys(s) <= Keys(Subtree(t, p))
    ensures IsBst(ReplaceAt(t, p, s)) && Keys(ReplaceAt(t, p, s)) <= Keys(t)
    decreases |p|
  {
    if |p| > 0 {
      var q := p[1..];
      assert p == [p[0]] + q;
      SubtreeCons(t, p[0], q);
      if p[0] == Left {
        ReplaceAtKeepsBst(t.left, q, s);
      } else {
        ReplaceAtKeepsBst(t.right, q, s);
      }
    }
  }

  /** The nodes the splice of `remove` can handle: at most one child. */
  predicate AtMostOneChild<V>(n: Tree<V>) {
    n.Node? && (n.left == Leaf || n.right == Leaf)
  }

  /** The child that takes the place of a node with at most one child. */
  function OnlyChild<V>(n: Tree<V>): Tree<V>
    requires n.Node?
  {
    if n.left != Leaf then n.left else n.right
  }

  /** Dropping the element between two stretches of a sequence. */
  lemma DropOne<T>(s: seq<T>, s': seq<T>, b: seq<T>, l: seq<T>, e: T, r: seq<T>, a: seq<T>, i: nat)
    requires s == b + (l + [e] + r) + a && s' == b + (l + r) + a && i == |b| + |l|
    ensures i < |s| && s' == s[..i] + s[i + 1..]
  {
    assert s == (b + l) + [e] + (r + a);
    assert s[..i] == b + l && s[i + 1..] == r + a;
  }

  /** Splicing out a node with at most one child drops exactly its entry
      from the in-order sequence. */
  lemma SpliceDropsEntry<V>(t: Tree<V>, p: Path)
    requires ValidPath(t, p) && AtMostOneChild(Subtree(t, p))
    ensures InOrder(ReplaceAt(t, p, OnlyChild(Subtree(t, p)))) ==
      InOrder(t)[..Rank(t, p)] + InOrder(t)[Rank(t, p) + 1..]
  {
    var n := Subtree(t, p);
    var b, a := Before(t, p), After(t, p);
    var l, e, r := InOrder(n.left), (n.key, n.value), InOrder(n.right);
    var s, s' := InOrder(t), InOrder(ReplaceAt(t, p, OnlyChild(n)));
    assert s == b + (l + [e] + r) + a by {
      InOrderAround(t, p);
    }
    assert s' == b + (l + r) + a by {
      ReplaceAtInOrder(t, p, OnlyChild(n));
      assert InOrder(OnlyChild(n)) == l + r;
    }
    assert Rank(t, p) == |b| + |l| by {
      RankCountsBefore(t, p);
    }
    DropOne(s, s', b, l, e, r, a, Rank(t, p));
  }

  /** `remove(it)`: `end()` raises; otherwise the node, which has at most one
      child, is replaced in its parent's slot (or at the root) by that child. */
  function Remove<V>(t: Tree<V>, it: Iter): (r: Result<Tree<V>>)
    requires it.At? ==> ValidPath(t, it.path) && AtMostOneChild(Subtree(t, it.path))
    ensures r.Err? <==> it.End?
    ensures r.Err? ==> r.error == RemoveInvalid
    ensures r.Ok? ==> InOrder(r.value) == InOrder(t)[..Rank(t, it.path)] + InOrder(t)[Rank(t, it.path) + 1..]
    ensures r.Ok? ==> Count(r.value) == Count(t) - 1
  {
    match it
    case End => Err(RemoveInvalid)
    case At(p) =>
      SpliceDropsEntry(t, p);
      Ok(ReplaceAt(t, p, OnlyChild(Subtree(t, p))))
  }

  /** Replacing the subtree at `p` by `s` puts `s` there, adds no key
      outside `s` and loses no key outside the old subtree. */
  lemma {:induction false} ReplaceAtKeys<V>(t: Tree<V>, p: Path, s: Tree<V>)
    requires ValidPath(t, p)
    ensures Subtree(ReplaceAt(t, p, s), p) == s
    ensures Keys(ReplaceAt(t, p, s)) <= Keys(t) + Keys(s)
    ensures Keys(t) <= Keys(ReplaceAt(t, p, s)) + Keys(Subtree(t, p))
    decreases |p|
  {
    if |p| > 0 {
      var q := p[1..];
      assert p == [p[0]] + q;
      SubtreeCons(t, p[0], q);
      SubtreeCons(ReplaceAt(t, p, s), p[0], q);
      if p[0] == Left {
        ReplaceAtKeys(t.left, q, s);
      } else {
        ReplaceAtKeys(t.right, q, s);
      }
    }
  }

  /** What `remove` keeps: every key but the removed one, and the
      search-tree property. */
  lemma RemoveKeepsKeys<V>(t: Tree<V>, p: Path)
    requires ValidPath(t, p) && AtMostOneChild(Subtree(t, p))
    ensures Keys(Remove(t, At(p)).value) + {Subtree(t, p).key} == Keys(t)
    ensures IsBst(t) ==> IsBst(Remove(t, At(p)).value)
  {
    var n := Subtree(t, p);
    var c := OnlyChild(n);
    var r := Remove(t, At(p)).value;
    assert r == ReplaceAt(t, p, c);
    ReplaceAtKeys(t, p, c);
    SubtreeFacts(t, p);
    SubtreeFacts(r, p);
    assert Keys(n) == Keys(c) + {n.key};
    if IsBst(t) {
      ReplaceAtKeepsBst(t, p, c);
    }
  }

  /** `remove(key)`: `remove(find(key))`. */
  function RemoveKey<V>(t: Tree<V>, key: int): (r: Result<Tree<V>>)
    requires Find(t, key).At? ==> AtMostOneChild(Subtree(t, Find(t, key).path))
    ensures r.Err? <==> Find(t, key).End?
    ensures IsBst(t) ==> (r.Err? <==> key !in Keys(t))
    ensures r.Err? ==> r.error == RemoveInvalid
    ensures r.Ok? ==> Count(r.value) == Count(t) - 1
  {
    FindIsComplete(t, key);
    Remove(t, Find(t, key))
  }

  lemma {:induction false} SubtreeAppend<V>(t: Tree<V>, p: Path, q: Path)
    requires ValidPath(t, p)
    ensures Subtree(t, p + q) == Subtree(Subtree(t, p), q)
    ensures ValidPath(t, p + q) <==> ValidPath(Subtree(t, p), q)
    decreases |p|
  {
    if |p| == 0 {
      assert p + q == q;
    } else {
      assert p + q == [p[0]] + (p[1..] + q);
      assert p == [p[0]] + p[1..];
      SubtreeCons(t, p[0], p[1..] + q);
      SubtreeCons(t, p[0], p[1..]);
      SubtreeAppend(if p[0] == Left then t.left else t.right, p[1..], q);
    }
  }

  lemma {:induction false} ReplaceAtAppend<V>(t: Tree<V>, p: Path, q: Path, s: Tree<V>)
    requires ValidPath(t, p)
    ensures ReplaceAt(t, p + q, s) == ReplaceAt(t, p, ReplaceAt(Subtree(t, p), q, s))
    decreases |p|
  {
    if |p| == 0 {
      assert p + q == q;
    } else {
      assert (p + q)[0] == p[0] && (p + q)[1..] == p[1..] + q;
      assert p == [p[0]] + p[1..];
      SubtreeCons(t, p[0], p[1..]);
      ReplaceAtAppend(if p[0] == Left then t.left else t.right, p[1..], q, s);
    }
  }

  /** The two-child case of `remove`, which splices out the successor
      instead: the successor has no left child and is the next node in
      in-order, the node the iterator names stays linked with its entry, and
      the entry that leaves the traversal is the successor's. Freeing the
      still-linked target afterwards leaves no well-defined tree. */
  lemma RemoveTwoChildren<V>(t: Tree<V>, p: Path)
    requires ValidPath(t, p) && Subtree(t, p).left != Leaf && Subtree(t, p).right != Leaf
    ensures Successor(t, p).At?
    ensures var y := Successor(t, p).path;
      && ValidPath(t, y) && Subtree(t, y).left == Leaf && Rank(t, y) == Rank(t, p) + 1
      && var t' := ReplaceAt(t, y, OnlyChild(Subtree(t, y)));
      && ValidPath(t', p) && EntryAt(t', p) == EntryAt(t, p)
      && InOrder(t') == InOrder(t)[..Rank(t, p) + 1] + InOrder(t)[Rank(t, p) + 2..]
  {
    SuccessorBelow(t, p);
    var n := Subtree(t, p);
    var m := Leftmost(n.right);
    var y := p + ([Right] + m);
    var c := OnlyChild(Subtree(t, y));
    var t' := ReplaceAt(t, y, c);
    ReplaceAtAppend(t, p, [Right] + m, c);
    var x := ReplaceAt(n, [Right] + m, c);
    ReplaceAtKeys(t, p, x);
    assert Subtree(t', p) == x;
    SpliceDropsEntry(t, y);
  }

  /** The successor of a node with a right child is the leftmost node of
      that child: it has no left child and comes next in in-order. */
  lemma SuccessorBelow<V>(t: Tree<V>, p: Path)
    requires ValidPath(t, p) && Subtree(t, p).right != Leaf
    ensures var y := p + ([Right] + Leftmost(Subtree(t, p).right));
      && Successor(t, p) == At(y)
      && ValidPath(t, y) && Subtree(t, y).left == Leaf && Rank(t, y) == Rank(t, p) + 1
  {
    var n := Subtree(t, p);
    var m := Leftmost(n.right);
    var y := p + [Right] + m;
    assert Successor(t, p) == At(y);
    assert y == p + ([Right] + m);
    SubtreeAppend(t, p, [Right] + m);
    SubtreeCons(n, Right, m);
    var i := Rank(t, p);
    SuccessorIsNext(t, i);
    InOrderPathsDistinct(t);
  }

  // ---------------------------------------------------------------------------
  // Iterators

  /** The node at position `i` of in-order has rank `i`. */
  lemma RankOfPosition<V>(t: Tree<V>, i: nat)
    requires i < |InOrderPaths(t)|
    ensures ValidPath(t, InOrderPaths(t)[i]) && Rank(t, InOrderPaths(t)[i]) == i
    ensures |InOrderPaths(t)| == Count(t)
  {
    InOrderPathsMatch(t);
    InOrderPathsDistinct(t);
  }

  /** `++`: null raises; otherwise `treeSucessor` moves to the next node in
      in-order, or to `end()` after the last. */
  function Increment<V>(t: Tree<V>, it: Iter): (r: Result<Iter>)
    requires it.At? ==> ValidPath(t, it.path)
    ensures r.Err? <==> it.End?
    ensures r.Err? ==> r.error == IncrementEnd
    ensures r.Ok? ==> r.value == IterAt(t, Rank(t, it.path) + 1)
  {
    match it
    case End => Err(IncrementEnd)
    case At(p) =>
      SuccessorIsNext(t, Rank(t, p));
      assert Successor(t, p) == IterAt(t, Rank(t, p) + 1);
      Ok(Successor(t, p))
  }

  /** A node other than the first has a predecessor, the node one place
      earlier in in-order. */
  lemma PredecessorOfLater<V>(t: Tree<V>, p: Path)
    requires ValidPath(t, p) && At(p) != IterAt(t, 0)
    ensures Rank(t, p) > 0 && Predecessor(t, p) == IterAt(t, Rank(t, p) - 1)
  {
    var i := Rank(t, p);
    assert i != 0;
    var q := InOrderPaths(t)[i - 1];
    assert Predecessor(t, p) == At(q) by {
      PredecessorIsPrevious(t, i);
    }
    assert IterAt(t, i - 1) == At(q);
    assert Predecessor(t, p) == IterAt(t, Rank(t, p) - 1);
  }

  /** `--`: an empty tree raises, then `begin()` raises; `end()` moves to
      `treeMaximum`, any other node to `treePredecessor`, the previous node in
      in-order. */
  function Decrement<V>(t: Tree<V>, it: Iter): (r: Result<Iter>)
    requires it.At? ==> ValidPath(t, it.path)
    ensures r.Err? <==> t == Leaf || it == IterAt(t, 0)
    ensures t == Leaf ==> r == Err(DecrementEmpty)
    ensures t != Leaf && it == IterAt(t, 0) ==> r == Err(DecrementBegin)
    ensures r.Ok? && it.End? ==> r.value == IterAt(t, Count(t) - 1)
    ensures r.Ok? && it.At? ==> Rank(t, it.path) > 0 && r.value == IterAt(t, Rank(t, it.path) - 1)
  {
    if t == Leaf then Err(DecrementEmpty)
    else if it == TreeMinimum(t) then Err(DecrementBegin)
    else match it
      case End =>
        assert TreeMaximum(t) == IterAt(t, Count(t) - 1);
        Ok(TreeMaximum(t))
      case At(p) =>
        PredecessorOfLater(t, p);
        assert Predecessor(t, p) == IterAt(t, Rank(t, p) - 1);
        Ok(Predecessor(t, p))
  }

  /** `*`: null raises; otherwise the entry of the node, which is the entry at
      the node's rank in in-order. */
  function Deref<V>(t: Tree<V>, it: Iter): (r: Result<(int, V)>)
    requires it.At? ==> ValidPath(t, it.path)
    ensures r.Err? <==> it.End?
    ensures r.Err? ==> r.error == DereferenceEnd
    ensures r.Ok? ==> r.value == InOrder(t)[Rank(t, it.path)]
  {
    match it
    case End => Err(DereferenceEnd)
    case At(p) =>
      InOrderPathsMatch(t);
      Ok(EntryAt(t, p))
  }

  /** `isEmpty`: the root is null, which is when `getSize` is zero and
      `begin() == end()`. */
  function IsEmpty<V>(t: Tree<V>): (r: bool)
    ensures r <==> Count(t) == 0
    ensures r <==> TreeMinimum(t) == End
  {
    t == Leaf
  }

  lemma TakeOneMore<T>(s: seq<T>, k: nat)
    requires k < |s|
    ensures s[..k + 1] == s[..k] + [s[k]]
  {
  }

  /** Iteration from `begin()` with `++` until `end()` visits the nodes in
      in-order (see `TraversalFacts` for what that order guarantees). */
  method Traverse<V>(t: Tree<V>) returns (visited: seq<Path>)
    ensures visited == InOrderPaths(t)
  {
    assert |InOrderPaths(t)| == |InOrder(t)| by {
      InOrderPathsCount(t);
    }
    var it := TreeMinimum(t);
    visited := [];
    while it != End
      invariant |visited| <= |InOrderPaths(t)|
      invariant visited == InOrderPaths(t)[..|visited|]
      invariant it == IterAt(t, |visited|)
      decreases |InOrderPaths(t)| - |visited|
    {
      var k := |visited|;
      assert it == At(InOrderPaths(t)[k]);
      RankOfPosition(t, k);
      var next := Increment(t, it);
      assert next.value == IterAt(t, k + 1);
      TakeOneMore(InOrderPaths(t), k);
      visited := visited + [it.path];
      it := next.value;
    }
  }

  /** The in-order node sequence names every node exactly once, holds the
      entries in in-order, and on a search tree its keys never decrease. */
  lemma TraversalFacts<V>(t: Tree<V>)
    ensures |InOrderPaths(t)| == Count(t)
    ensures forall p | ValidPath(t, p) :: p in InOrderPaths(t)
    ensures forall i, j | 0 <= i < j < |InOrderPaths(t)| :: InOrderPaths(t)[i] != InOrderPaths(t)[j]
    ensures forall i | 0 <= i < |InOrderPaths(t)| ::
      ValidPath(t, InOrderPaths(t)[i]) && EntryAt(t, InOrderPaths(t)[i]) == InOrder(t)[i]
    ensures IsBst(t) ==> forall i, j | 0 <= i < j < |InOrderPaths(t)| ::
      EntryAt(t, InOrderPaths(t)[i]).0 <= EntryAt(t, InOrderPaths(t)[j]).0
  {
    InOrderPathsMatch(t);
    InOrderPathsDistinct(t);
    forall p | ValidPath(t, p) ensures p in InOrderPaths(t) {
      assert InOrderPaths(t)[Rank(t, p)] == p;
    }
    if IsBst(t) {
      BstInOrderSorted(t);
    }
  }

  /** What `a == b` decides: every entry of `a` is found in `b` with an equal
      value. Sizes are not compared. */
  predicate Covers<V(==)>(a: Tree<V>, b: Tree<V>) {
    CoversUpTo(a, b, |InOrder(a)|)
  }

  /** The first `n` entries of `a` in in-order are found in `b`. */
  predicate CoversUpTo<V(==)>(a: Tree<V>, b: Tree<V>, n: nat)
    requires n <= |InOrder(a)|
  {
    forall i | 0 <= i < n :: ValueOf(b, InOrder(a)[i].0) == Ok(InOrder(a)[i].1)
  }

  lemma CoversOneMore<V>(a: Tree<V>, b: Tree<V>, n: nat)
    requires n < |InOrder(a)| && CoversUpTo(a, b, n)
    requires ValueOf(b, InOrder(a)[n].0) == Ok(InOrder(a)[n].1)
    ensures CoversUpTo(a, b, n + 1)
  {
  }

  /** Position `n` of an iteration that starts at `begin()` names the
      `n`-th in-order node, whose entry `*` yields. */
  lemma IterAtPosition<V>(t: Tree<V>, n: nat)
    requires n < Count(t)
    ensures IterAt(t, n).At? && ValidPath(t, IterAt(t, n).path)
    ensures Rank(t, IterAt(t, n).path) == n
    ensures Deref(t, IterAt(t, n)) == Ok(InOrder(t)[n])
  {
    assert |InOrderPaths(t)| == Count(t) by {
      InOrderPathsCount(t);
    }
    RankOfPosition(t, n);
  }

  /** `++` moves an iteration from position `n` to position `n + 1`. */
  lemma IterNext<V>(t: Tree<V>, n: nat)
    requires n < Count(t)
    ensures IterAt(t, n).At? && ValidPath(t, IterAt(t, n).path)
    ensures Increment(t, IterAt(t, n)) == Ok(IterAt(t, n + 1))
  {
    IterAtPosition(t, n);
    var r := Increment(t, IterAt(t, n));
    assert r.Ok? && r.value == IterAt(t, n + 1);
  }

  /** `operator==`: iterate over `a`, look every key up in `b`, stop at the
      first missing key or differing value. */
  method Equals<V(==)>(a: Tree<V>, b: Tree<V>) returns (r: bool)
    ensures r <==> Covers(a, b)
  {
    assert |InOrderPaths(a)| == Count(a) == |InOrder(a)| by {
      InOrderPathsCount(a);
    }
    var it := TreeMinimum(a);
    var n := 0;
    while it != End
      invariant n <= Count(a) && it == IterAt(a, n)
      invariant CoversUpTo(a, b, n)
      decreases Count(a) - n
    {
      IterAtPosition(a, n);
      var e := Deref(a, it).value;
      var f := Find(b, e.0);
      assert ValueOf(b, e.0) == if f == End then Err(NotFound) else Ok(Subtree(b, f.path).value);
      if f == End || Subtree(b, f.path).value != e.1 {
        return false;
      }
      CoversOneMore(a, b, n);
      IterNext(a, n);
      it := Increment(a, it).value;
      n := n + 1;
    }
    return true;
  }

  /** `==` is not symmetric: the empty map equals every map, but a map with an
      entry does not equal the empty map. */
  lemma CoversNotSymmetric<V>(b: Tree<V>, v: V)
    ensures Covers(Leaf, b)
    ensures !Covers(Node(Leaf, 0, v, Leaf), Leaf)
  {
    assert InOrder(Node(Leaf, 0, v, Leaf))[0] == (0, v);
  }

  /** An iterator is its path from the root: one held across the removal of
      another node names whatever node that path reaches afterwards. Here
      removing key 3 lifts key 2's subtree, so the path that reached key 2
      now reaches key 1. */
  lemma RemoveShiftsHeldIterator()
    ensures var t := Node(Node(Node(Node(Leaf, 1, 10, Leaf), 2, 20, Leaf), 3, 30, Leaf), 5, 50, Leaf);
      && Deref(t, At([Left, Left])) == Ok((2, 20))
      && RemoveKey(t, 3).Ok?
      && ValidPath(RemoveKey(t, 3).value, [Left, Left])
      && Deref(RemoveKey(t, 3).value, At([Left, Left])) == Ok((1, 10))
  {
    var t := Node(Node(Node(Node(Leaf, 1, 10, Leaf), 2, 20, Leaf), 3, 30, Leaf), 5, 50, Leaf);
    assert Find(t, 3) == At([Left]);
    assert RemoveKey(t, 3).value == Node(Node(Node(Leaf, 1, 10, Leaf), 2, 20, Leaf), 5, 50, Leaf);
  }
}
